=== FILE: README.md ===
# laravel-data-collection: the query engine of `DataCollection`, in Dafny

`DataCollection` is an abstract PHP class. A subclass supplies its data with
`getData()` and may define predicate methods `filteredBy<Name>($item, $param)`
and a `dataMapper($items)`. Calls on the class or on an instance go through
the magic `__call`/`__callStatic`:

- `filteredBy(...)` narrows the items, one criterion at a time.
- `orderedBy($field, $order = 'asc')` sorts the items by a field.
- Any other method maps the items with `dataMapper` and forwards the call to
  the underlying Illuminate collection. Statically, any other method just
  returns a fresh instance.

This project models that engine as pure functions over immutable values and
proves what each step does.

| file | module | contents |
|---|---|---|
| `results.dfy` | `Results` | `Option` and `Result` (with `:-` propagation) |
| `php_strings.dfy` | `PhpStrings` | `strtolower`, `ucfirst`, `rtrim` with a character mask, PHP 8 `is_numeric`, integer-to-string |
| `sequences.dfy` | `Sequences` | filtering (`Keep`), insertion sort (`SortBy`), the orders used for sorting |
| `criteria.dfy` | `Criteria` | criterion resolution (`getFilter`) and direction resolution |
| `data_collection.dfy` | `DataCollection` | the class, its instances, `filterItems`, `orderItems`, `applyCriteria`, `__call`, `__callStatic` |
| `scenarios.dfy` | `Scenarios` | the subclasses of tests/Unit/DataCollectionTest.php and what the engine does with them |

How PHP concepts are represented:

- **Subclass.** A `Class` value holds:
  - its data;
  - its predicate methods, as a map keyed by lower-case method name (PHP
    method lookup ignores case). This is a convention on the subclass value:
    a method stored under a key that is not lower-case is never found;
  - its mapper;
  - how a criterion value prints as a string;
  - how a record's field is read;
  - how field values compare.
- **Instance.** An `Instance` value is just its items.
- **Method call.** A `Call` is `filteredBy` with its arguments, `orderedBy`
  with its arguments, or any other collection method. That other method is a
  name plus the function it computes on the items.
- **Exceptions.** A `BadMethodCallException` for a missing predicate method
  and an `ArgumentCountError` for `orderedBy()` become `Err` results.

## Model

| member | source | states |
|---|---|---|
| PhpStrings.StrToLower | src/DataCollection.php:104 | `strtolower` keeps the length, leaves no ASCII capital, changes nothing but capitals, and lowers each capital by 32 |
| PhpStrings.Ucfirst | src/DataCollection.php:122 | `ucfirst` keeps the length and every character after the first; a lower-case first letter becomes its capital (32 below it), and any other first character is unchanged |
| PhpStrings.RTrim | src/DataCollection.php:104 | `rtrim($s, $mask)` returns a prefix of `s`; every stripped character is in the mask; what remains is empty or ends outside the mask |
| PhpStrings.LowerOfUcfirst | src/DataCollection.php:122 | `ucfirst` never changes a name up to letter case, so it never changes which predicate method is found |
| PhpStrings.StrToLowerAppend | src/DataCollection.php:123 | lower-casing `"filteredBy" . $name` is lower-casing each part |
| PhpStrings.IsNumeric | src/DataCollection.php:122 | a string PHP 8 `is_numeric` accepts holds at least one digit, and nothing but digits, signs, a point, `e`/`E` and whitespace |
| PhpStrings.Decimal | src/DataCollection.php:122 | PHP's string form of an integer: digits without a leading zero that read back as the number, after a minus sign when it is negative |
| PhpStrings.LetterStartIsNotNumeric | src/DataCollection.php:122 | a key that starts with a letter is not numeric, so it is used as the predicate name |
| PhpStrings.DigitsAreNumeric | src/DataCollection.php:122 | a key made only of digits is numeric, so its value is used as the predicate name |
| Sequences.Keep | src/DataCollection.php:88-90 | the filtered items are a subsequence of the items, in original order; all of them satisfy the predicate; there are as many as items satisfying it |
| Sequences.KeepCounts | src/DataCollection.php:88-90 | each value occurs in the result as often as in the items if it satisfies the predicate, and never otherwise |
| Sequences.KeepKeep | src/DataCollection.php:85-91 | filtering by `p` and then `q` is filtering once by their conjunction |
| Sequences.KeepAgree | src/DataCollection.php:88-90 | filtering depends only on the predicate's verdicts on the items present |
| Sequences.KeepEverything | src/DataCollection.php:88-90 | a predicate that accepts everything keeps every item in place |
| Sequences.SubsequenceNoLonger | src/DataCollection.php:88-90 | a filtered result is never longer than the items |
| Sequences.Insert | src/DataCollection.php:107 | inserting adds exactly one occurrence of the item and nothing else |
| Sequences.InsertKeepsSorted | src/DataCollection.php:107 | inserting into a sequence sorted by a total preorder keeps it sorted |
| Sequences.SortBy | src/DataCollection.php:107 | `sortBy(...)->values()` returns a permutation of the items, densely indexed, in non-decreasing key order |
| Sequences.FlipPreservesTotalPreorder | src/DataCollection.php:105 | the reverse of a total preorder is one, so `sortByDesc` sorts too |
| Sequences.LexLeIsTotalPreorder | src/DataCollection.php:107 | string field values compare as a total preorder |
| Sequences.IntLeIsTotalPreorder | src/DataCollection.php:107 | integer field values compare as a total preorder |
| Criteria.GetFilter | src/DataCollection.php:116-124 | the parameter is the value; the method name starts with `filteredBy`; up to case it is `filteredBy` followed by the value for a numeric key and by the key otherwise |
| Criteria.ResolveDirection | src/DataCollection.php:104-105 | descending exactly when the lower-cased token is `desc` followed only by the letters e, n, d, i, g |
| Criteria.TrimmedIsDesc | src/DataCollection.php:104-105 | `rtrim($l, 'ending') == 'desc'` holds exactly when `l` is `desc` followed only by mask letters |
| Criteria.Resolve | src/DataCollection.php:85-87 | the two loops yield one criterion per key/value pair of every argument: the `j`-th criterion is `getFilter` of the `j`-th pair in the order the loops visit them |
| Criteria.ResolveAppend | src/DataCollection.php:85-87 | the criteria of several arguments are those of each argument, in order |
| Criteria.ScalarsResolve | src/DataCollection.php:85-87 | `filteredBy('a', 'b', ...)` resolves to the bare names in order |
| Criteria.PositionalFormsAgree | src/DataCollection.php:85-87 | `filteredBy('a', 'b')` and `filteredBy(['a', 'b'])` give the same criteria, whatever the integer keys |
| Criteria.NamedKeyNamesFilter | src/DataCollection.php:122-123 | a key starting with a letter names `filteredBy<Key>` with the value as parameter, whatever the value |
| Criteria.DirectionTokens | src/DataCollection.php:102-105 | `desc`, `descending`, `DESC` and `DESCENDING` descend; `asc`, `ascending` and the default ascend |
| Criteria.DirectionQuirks | src/DataCollection.php:104-105 | the mask also makes `descend`, `DescEnd` and `descing` descend, while `des` ascends |
| DataCollection.FreshInstanceHoldsData | src/DataCollection.php:18-21 | a new instance holds `getData()`: its first forwarded call maps that data and answers from it, and a static call returns it unmapped |
| DataCollection.LookupIgnoresCase | src/DataCollection.php:89 | `$this->$method` finds the same predicate method, or none, for names that differ only in ASCII case, and finds one exactly when the lower-cased name is defined |
| DataCollection.FilterStep | src/DataCollection.php:88-90 | one criterion succeeds exactly when there are no items or its method exists, and then keeps exactly the items its method accepts, in order; with items and no method it fails naming the method |
| DataCollection.ApplyFilters | src/DataCollection.php:85-92 | success is exactly the items accepted by every criterion, in order; a failure names the criterion without a method that items reach; no items never fail |
| DataCollection.FailsAtUnique | src/DataCollection.php:85-92 | at most one criterion is reached with items left and has no method, so the failure is determined |
| DataCollection.FilterItems | src/DataCollection.php:83-95 | `filterItems` keeps exactly the items every criterion of every argument accepts; it fails exactly when a criterion without a method is reached with items left, and names that criterion |
| DataCollection.FilterOneMore | src/DataCollection.php:85-91 | filtering by the first criterion, then the rest, is filtering by all of them |
| DataCollection.FilterFailsIff | src/DataCollection.php:85-92 | the loop fails exactly when some criterion lacks a method while items still remain before it |
| DataCollection.ApplyFiltersAppend | src/DataCollection.php:85-92 | applying `a + b` is applying `a` and then `b`, failures included |
| DataCollection.FiltersReadOnlyPredicates | src/DataCollection.php:83-95 | filtering reads nothing of the subclass but its predicate methods |
| DataCollection.OrderItems | src/DataCollection.php:102-110 | the result is a permutation of the items, non-decreasing in the field for ascending and non-increasing for descending |
| DataCollection.ApplyCriteria | src/DataCollection.php:69-77 | handled exactly for `filteredBy`/`orderedBy`; other methods change nothing and never fail; `filteredBy` fails exactly when `filterItems` does, with its error, and otherwise keeps the accepted items; `orderedBy` fails exactly without arguments and otherwise permutes the items into the order of the first argument, in the direction the second (default `asc`) resolves to |
| DataCollection.Invoke | src/DataCollection.php:39-48 | any other method replaces the items by their mapping and answers from the mapped items; `filteredBy` succeeds exactly when the filter loop does, fails with the loop's error, and otherwise chains the instance holding the accepted items; `orderedBy` fails exactly without arguments and otherwise chains a permutation of the items sorted on the named field in the requested direction |
| DataCollection.InvokeStatic | src/DataCollection.php:55-62 | any other method returns a fresh instance, unmapped; `filteredBy` succeeds exactly when the filter loop does, fails with the loop's error, and otherwise returns the accepted data; `orderedBy` fails exactly without arguments and otherwise returns a permutation of the data sorted on the named field in the requested direction |
| DataCollection.StaticIsFreshInstance | src/DataCollection.php:55-62 | a static criteria call is the same call on a freshly constructed instance: both fail or both return that instance |
| DataCollection.ChainedFiltersAgree | src/DataCollection.php:55-62 | `filteredBy(a)->filteredBy(b)` and `filteredBy(a, b)` succeed together and agree |
| DataCollection.SingleFilter | src/DataCollection.php:83-95 | a lone bare name with a predicate method keeps exactly the items it accepts |
| DataCollection.NameCaseIrrelevant | src/DataCollection.php:89 | named keys that differ only in letter case find the same predicate method |
| DataCollection.CriteriaIgnoreMapper | src/DataCollection.php:41-43 | criteria calls on an instance never run the mapper |
| DataCollection.StaticCallsIgnoreMapper | src/DataCollection.php:55-62 | static calls never run the mapper |
| DataCollection.DefaultMapperKeepsItems | src/DataCollection.php:29-32 | with the default mapper a forwarded call leaves the items as they were |
| DataCollection.ForwardedCallsRemap | src/DataCollection.php:45 | two forwarded calls run the mapper twice |
| DataCollection.MapperSeesFilteredItems | src/DataCollection.php:45-47 | after `filteredBy`, the mapper is given exactly the items accepted by every criterion |
| Scenarios.EvenScenario | tests/Unit/DataCollectionTest.php:157-175 | `filteredBy('even')` over 1..5 gives 2, 4 |
| Scenarios.TwoBareFiltersScenario | tests/Unit/DataCollectionTest.php:199-224 | both argument forms of `even`, `underTen` over 1, 2, 3, 10 give 2 |
| Scenarios.NamedFiltersScenario | tests/Unit/DataCollectionTest.php:227-253 | `['greaterThan' => 2, 'dividable' => 4]` over 1..4 gives 4 |
| Scenarios.ChainedFiltersScenario | tests/Unit/DataCollectionTest.php:284-307 | `filteredBy(['greaterThan' => 2])->filteredBy(['dividable' => 4])` over 1..4 gives 4 |
| Scenarios.MapperAfterFilterScenario | tests/Unit/DataCollectionTest.php:256-281 | `filteredBy('even')->toArray()` with a times-ten mapper gives 20, 40 |
| Scenarios.AscendingScenario | tests/Unit/DataCollectionTest.php:310-329 | `orderedBy('name')` gives Alpha, Beta, Delta |
| Scenarios.DescendingScenario | tests/Unit/DataCollectionTest.php:332-356 | each of the four descending tokens gives Delta, Beta, Alpha |
| Scenarios.NotAlphaScenario | tests/Unit/DataCollectionTest.php:430-449 | `filteredBy('notAlpha')` over Alpha, Delta, Beta gives Delta, Beta |
| Scenarios.FilterThenOrderScenario | tests/Unit/DataCollectionTest.php:430-453 | `filteredBy('notAlpha')->orderedBy('name', 'asc')` gives Beta, Delta |
| Scenarios.RemapScenario | tests/Unit/DataCollectionTest.php:521-542 | after `$class::all()`, `first()` answers 10 and then `last()` answers 400, because the mapper runs again |
| Scenarios.MissingFilterScenario | src/DataCollection.php:88-90 | `filteredBy('odd')` with no `filteredByOdd` method fails on items 1, 2, naming `filteredByOdd` |
| Scenarios.MissingFilterOnNothingScenario | src/DataCollection.php:88-90 | the same call on no data succeeds with no items |

The tests and the code disagree in places. The model follows the code:

- `it_does_not_map_its_collection_over_and_over_again` expects `last()` to
  answer 40. `__call` maps the items again on every forwarded call, so the
  code answers 400. `Scenarios.RemapScenario` shows this.
- `ordering_must_imply_mapping_before_being_carried_out` expects the items to
  be mapped before ordering. `orderItems` sorts the unmapped items.
- `ordering_can_be_done_through_a_custom_method` expects an
  `orderBy<Field>` hook. The code has none: `orderedBy('coloursCount')` sorts
  on the field `coloursCount`.

## Left out

- src/CollectionInterfaces.php is not part of this model. It only delegates `count`, array access, iteration and JSON output to the collection.
- Pagination (`paginate`) is left out: there is no pagination code in the class, and a static `paginate()` returns the instance like any other method.
- The Illuminate collection's own methods are left out. A forwarded call is modelled as an arbitrary function of the mapped items and its answer. The model does not check that the collection defines that method.
- DataCollection.Invoke: forwarded methods are modelled as read-only. In-place collection mutators (`pop`, `shift`, `push`, `put`, `transform`, `forget`, `splice`) change the collection the instance holds, so after `$inst->pop()` PHP's instance holds the mapped items minus the last; the model's instance holds all the mapped items.
- The keys of `getData()` are not modelled: the data is a sequence. `collect($this->getData())` keeps the array's keys, and only a criterion's `->values()` re-indexes them, so in PHP a forwarded call on an instance no criterion has touched sees the original, possibly non-list, keys (`['x' => 1, 'y' => 2]` answers `toArray()` with those keys). The model's forwarded method sees only the values, and the re-indexing after filtering or sorting is not observable.
- A mapper may return something other than a collection. The model's mapper returns a sequence of items of the same type.
- What happens to an instance after an exception is left out. When a later criterion throws, PHP has already narrowed the items by the earlier ones. A missing predicate is reached through `$this->$method(...)`, which dispatches to `__call`; that maps the items with `dataMapper` before the collection throws `BadMethodCallException`, so the caught instance holds mapped items. The model only returns the error.
- Criteria.GetFilter: the criterion value's string conversion is a total function. For a positional key, PHP 8's `ucfirst($value)` throws `TypeError` when the value is an array or an object without `__toString`; the model has no such error.
- Criteria.Entries: the criterion value type excludes `null` and other values that `collect` expands. `collect(null)` is empty, so `filteredBy(null)` changes nothing in PHP; the model gives every scalar argument exactly one entry.
- An empty criterion name is left out. Its method name is `filteredBy` itself, which PHP dispatches back into `__call`; the model treats it like any missing predicate method.
- PHP's loose comparison used by `sortBy` is left out. The comparison is a parameter, and sortedness is proved whenever it is a total preorder. Strings compare byte-wise and integers numerically in the scenarios.
- DataCollection.OrderItems: does not state the order of items with equal keys. That order is defined by the collection library, not by this class. The model sorts stably.
- Sorting by a callable instead of a field name is left out. The model reads the field with the subclass's field accessor.
- `rtrim`'s `a..b` range syntax in the mask is left out. The one mask used, `ending`, contains no range.
- Float data and the float percentages of the mapping-before-ordering test are left out. The model has no floating point.
- The reflection tests (abstract class, final constructor) and JSON and iteration output are left out. They describe no behaviour of the engine.

=== FILE: criteria.dfy ===
/**
 * How the arguments of `filteredBy(...)` and `orderedBy(...)` are read: each
 * filter criterion becomes the name of a predicate method `filteredBy<Name>`
 * and a parameter, and an order token becomes a sort direction.
 */
module Criteria {
  import opened PhpStrings

  /** A PHP array key: an integer, or a string that did not look like a canonical integer. */
  datatype Key = Index(index: int) | Name(name: string)

  /** One `key => value` pair of a criteria array. */
  datatype Entry<P> = Entry(key: Key, value: P)

  /**
   * One argument of `filteredBy(...)`: a single value (a bare name such as
   * `'even'`) or an array of entries. `collect` turns a single value into an
   * array with the one key 0.
   */
  datatype Argument<P> = Scalar(value: P) | Array(entries: seq<Entry<P>>)

  /** A resolved criterion: the predicate method to call and the parameter to pass it. */
  datatype Filter<P> = Filter(methodName: string, param: P)

  datatype Direction = Ascending | Descending

  const FilterPrefix: string := "filteredBy"

  /** The direction used when `orderedBy` is given only a field. */
  const DefaultOrder: string := "asc"

  /** The character mask `rtrim` strips from a lower-cased order token. */
  const DirectionMask: string := "ending"

  /** PHP `is_numeric($key)`: integer keys always are. */
  predicate IsNumericKey(k: Key) {
    match k
    case Index(_) => true
    case Name(s) => IsNumeric(s)
  }

  /** `collect($argument)`: the key/value pairs iterated by the filter loop. */
  function Entries<P>(a: Argument<P>): seq<Entry<P>> {
    match a
    case Scalar(v) => [Entry(Index(0), v)]
    case Array(es) => es
  }

  /**
   * `getFilter([$key => $value])`: a positional key names the predicate by
   * the value, a named key names it by the key; the value is always the
   * parameter. `show` is PHP's conversion of the value to a string.
   */
  function GetFilter<P>(show: P -> string, e: Entry<P>): (f: Filter<P>)
    ensures f.param == e.value
    ensures |f.methodName| >= |FilterPrefix| && f.methodName[..|FilterPrefix|] == FilterPrefix
    ensures IsNumericKey(e.key) ==>
      |f.methodName| == |FilterPrefix| + |show(e.value)| &&
      StrToLower(f.methodName) == StrToLower(FilterPrefix + show(e.value))
    ensures !IsNumericKey(e.key) ==>
      |f.methodName| == |FilterPrefix| + |e.key.name| &&
      StrToLower(f.methodName) == StrToLower(FilterPrefix + e.key.name)
  {
    var name := if IsNumericKey(e.key) then show(e.value) else e.key.name;
    var m := FilterPrefix + Ucfirst(name);
    assert m[..|FilterPrefix|] == FilterPrefix;
    StrToLowerAppend(FilterPrefix, Ucfirst(name));
    StrToLowerAppend(FilterPrefix, name);
    LowerOfUcfirst(name);
    Filter(m, e.value)
  }

  function EntryFilters<P>(show: P -> string, es: seq<Entry<P>>): seq<Filter<P>> {
    seq(|es|, i requires 0 <= i < |es| => GetFilter(show, es[i]))
  }

  /** The key/value pairs of all arguments, in the order the two loops visit them. */
  function AllEntries<P>(args: seq<Argument<P>>): seq<Entry<P>>
    decreases |args|
  {
    if |args| == 0 then [] else Entries(args[0]) + AllEntries(args[1..])
  }

  /**
   * All criteria of one `filteredBy(...)` call: the `j`-th is `getFilter` of
   * the `j`-th key/value pair the loops visit.
   */
  function Resolve<P>(show: P -> string, args: seq<Argument<P>>): (fs: seq<Filter<P>>)
    ensures |fs| == |AllEntries(args)|
    ensures forall j :: 0 <= j < |fs| ==> fs[j] == GetFilter(show, AllEntries(args)[j])
    decreases |args|
  {
    if |args| == 0 then []
    else
      var es := Entries(args[0]);
      var rest := Resolve(show, args[1..]);
      FiltersOfConcat(show, es, AllEntries(args[1..]), rest);
      EntryFilters(show, es) + rest
  }

  lemma FiltersOfConcat<P>(show: P -> string, es: seq<Entry<P>>, more: seq<Entry<P>>, rest: seq<Filter<P>>)
    requires |rest| == |more|
    requires forall j :: 0 <= j < |rest| ==> rest[j] == GetFilter(show, more[j])
    ensures var fs, all := EntryFilters(show, es) + rest, es + more;
      |fs| == |all| && forall j :: 0 <= j < |fs| ==> fs[j] == GetFilter(show, all[j])
  {
    var head, fs, all := EntryFilters(show, es), EntryFilters(show, es) + rest, es + more;
    forall j | 0 <= j < |fs|
      ensures fs[j] == GetFilter(show, all[j])
    {
      if j < |head| {
        assert fs[j] == head[j] && all[j] == es[j];
      } else {
        assert fs[j] == rest[j - |head|] && all[j] == more[j - |head|];
      }
    }
  }

  /**
   * `rtrim(strtolower($order), 'ending') == 'desc'`: the token is descending
   * exactly when, lower-cased, it is `desc` followed only by mask characters.
   */
  function ResolveDirection(order: string): (d: Direction)
    ensures d == Descending <==> IsDescToken(StrToLower(order))
  {
    var trimmed := RTrim(StrToLower(order), DirectionMask);
    TrimmedIsDesc(StrToLower(order));
    if trimmed == "desc" then Descending else Ascending
  }

  /** `desc` followed by any run of the letters e, n, d, i, g. */
  predicate IsDescToken(l: string) {
    |l| >= 4 && l[..4] == "desc" && forall i :: 4 <= i < |l| ==> l[i] in DirectionMask
  }

  lemma TrimmedIsDesc(l: string)
    ensures RTrim(l, DirectionMask) == "desc" <==> IsDescToken(l)
  {
    var r := RTrim(l, DirectionMask);
    if IsDescToken(l) {
      assert l[3] == 'c' && 'c' !in DirectionMask;
      assert |r| == 4;
      assert r == l[..4];
    }
  }

  // Properties

  /** Criteria of several arguments are those of each argument in turn. */
  lemma {:induction false} ResolveAppend<P>(show: P -> string, a: seq<Argument<P>>, b: seq<Argument<P>>)
    ensures Resolve(show, a + b) == Resolve(show, a) + Resolve(show, b)
    decreases |a|
  {
    if |a| == 0 {
      assert a + b == b;
    } else {
      assert (a + b)[1..] == a[1..] + b;
      ResolveAppend(show, a[1..], b);
      var head := EntryFilters(show, Entries(a[0]));
      calc {
        Resolve(show, a + b);
        head + Resolve(show, a[1..] + b);
        head + (Resolve(show, a[1..]) + Resolve(show, b));
        (head + Resolve(show, a[1..])) + Resolve(show, b);
      }
    }
  }

  /** The filter a bare name denotes: `filteredBy` + `ucfirst(name)`, with the name as parameter. */
  function BareFilter<P>(show: P -> string, v: P): Filter<P> {
    Filter(FilterPrefix + Ucfirst(show(v)), v)
  }

  function BareFilters<P>(show: P -> string, names: seq<P>): seq<Filter<P>> {
    seq(|names|, i requires 0 <= i < |names| => BareFilter(show, names[i]))
  }

  /** The argument list of `filteredBy('a', 'b', ...)`. */
  function Scalars<P>(names: seq<P>): seq<Argument<P>> {
    seq(|names|, i requires 0 <= i < |names| => Scalar(names[i]))
  }

  /** The one argument of `filteredBy(['a', 'b', ...])` with the given integer keys. */
  function Positional<P>(keys: seq<int>, names: seq<P>): Argument<P>
    requires |keys| == |names|
  {
    Array(seq(|names|, i requires 0 <= i < |names| => Entry(Index(keys[i]), names[i])))
  }

  lemma PositionalEntryIsBare<P>(show: P -> string, k: int, v: P)
    ensures GetFilter(show, Entry(Index(k), v)) == BareFilter(show, v)
  {
  }

  /** `filteredBy('a', 'b', ...)` resolves to the bare names in order. */
  lemma {:induction false} ScalarsResolve<P>(show: P -> string, names: seq<P>)
    ensures Resolve(show, Scalars(names)) == BareFilters(show, names)
    decreases |names|
  {
    if |names| > 0 {
      ScalarsResolve(show, names[1..]);
      ScalarsCons(names);
      BareFiltersCons(show, names);
      PositionalEntryIsBare(show, 0, names[0]);
      assert EntryFilters(show, Entries(Scalar(names[0]))) == [BareFilter(show, names[0])];
    }
  }

  lemma ScalarsCons<P>(names: seq<P>)
    requires |names| > 0
    ensures Scalars(names)[0] == Scalar(names[0])
    ensures Scalars(names)[1..] == Scalars(names[1..])
  {
  }

  lemma BareFiltersCons<P>(show: P -> string, names: seq<P>)
    requires |names| > 0
    ensures BareFilters(show, names) == [BareFilter(show, names[0])] + BareFilters(show, names[1..])
  {
  }

  /**
   * `filteredBy('a', 'b')` and `filteredBy(['a', 'b'])` resolve to the same
   * criteria, whatever the integer keys of the array: the bare names in order.
   */
  lemma PositionalFormsAgree<P>(show: P -> string, names: seq<P>, keys: seq<int>)
    requires |keys| == |names|
    ensures Resolve(show, [Positional(keys, names)]) == BareFilters(show, names)
    ensures Resolve(show, Scalars(names)) == Resolve(show, [Positional(keys, names)])
  {
    ScalarsResolve(show, names);
    var es := Positional(keys, names).entries;
    forall i | 0 <= i < |names|
      ensures GetFilter(show, es[i]) == BareFilter(show, names[i])
    {
      PositionalEntryIsBare(show, keys[i], names[i]);
    }
    assert Resolve(show, [Positional(keys, names)]) == EntryFilters(show, es) + Resolve(show, []);
  }

  /** A named key that starts with a letter names the predicate itself, whatever the value. */
  lemma NamedKeyNamesFilter<P>(show: P -> string, name: string, v: P)
    requires |name| > 0 && (IsAsciiLower(name[0]) || IsAsciiUpper(name[0]))
    ensures GetFilter(show, Entry(Name(name), v)) == Filter(FilterPrefix + Ucfirst(name), v)
  {
    LetterStartIsNotNumeric(name);
  }

  /** The order tokens the tests use resolve as intended, and so does a default or ascending token. */
  lemma DirectionTokens()
    ensures ResolveDirection("desc") == Descending
    ensures ResolveDirection("descending") == Descending
    ensures ResolveDirection("DESC") == Descending
    ensures ResolveDirection("DESCENDING") == Descending
    ensures ResolveDirection(DefaultOrder) == Ascending
    ensures ResolveDirection("asc") == Ascending
    ensures ResolveDirection("ascending") == Ascending
  {
    LowerDirectionTokens();
    DescendingTokensSpelled();
    AscendingTokensSpelled();
  }

  lemma LowerDirectionTokens()
    ensures StrToLower("desc") == "desc" && StrToLower("DESC") == "desc"
    ensures StrToLower("descending") == "descending" && StrToLower("DESCENDING") == "descending"
    ensures StrToLower("asc") == "asc" && StrToLower("ascending") == "ascending"
  {
  }

  lemma DescendingTokensSpelled()
    ensures IsDescToken("desc") && IsDescToken("descending")
  {
    assert "descending"[..4] == "desc";
  }

  lemma AscendingTokensSpelled()
    ensures !IsDescToken("asc") && !IsDescToken("ascending")
  {
    assert "ascending"[..4] != "desc" by {
      assert "ascending"[..4][0] == 'a';
    }
  }

  /**
   * The stripping also accepts tokens that are neither `desc` nor
   * `descending`, such as `descend` or `DescEnd`.
   */
  lemma DirectionQuirks()
    ensures ResolveDirection("descend") == Descending
    ensures ResolveDirection("DescEnd") == Descending
    ensures ResolveDirection("descing") == Descending
    ensures ResolveDirection("des") == Ascending
  {
    LowerQuirkTokens();
    QuirkTokensSpelled();
  }

  lemma LowerQuirkTokens()
    ensures StrToLower("descend") == "descend" && StrToLower("DescEnd") == "descend"
    ensures StrToLower("descing") == "descing" && StrToLower("des") == "des"
  {
  }

  lemma QuirkTokensSpelled()
    ensures IsDescToken("descend") && IsDescToken("descing") && !IsDescToken("des")
  {
    assert "descend"[..4] == "desc" && "descing"[..4] == "desc";
  }
}

=== FILE: data_collection.dfy ===
/**
 * The query-state engine of the abstract `DataCollection` class
 * (src/DataCollection.php). An instance wraps an ordered sequence of records;
 * the magic `__call`/`__callStatic` interpret `filteredBy` and `orderedBy`
 * and forward every other method to the underlying collection after running
 * `dataMapper` over the items.
 *
 * The concrete subclass is a `Class` value: its `getData()` result, its
 * `filteredBy<Name>` predicate methods, its `dataMapper`, and how a record's
 * field is read and compared when sorting.
 */
module DataCollection {
  import opened Results
  import opened PhpStrings
  import opened Sequences
  import opened Criteria

  /**
   * A concrete subclass. `filters` is its table of predicate methods, keyed
   * by lower-cased method name as PHP's method table is (`filteredbyeven` for
   * `filteredByEven`); an entry under any other key is never looked up.
   * `show` is PHP's string conversion of a criterion value, `field` reads a
   * named field of a record (`data_get`), and `le` compares
   * two field values as `sortBy` does.
   */
  datatype Class<!R, !P, !K> = Class(
    data: seq<R>,
    filters: map<string, (R, P) -> bool>,
    mapper: seq<R> -> seq<R>,
    show: P -> string,
    field: (R, string) -> K,
    le: (K, K) -> bool)

  /** The state of one instance: its current items. */
  datatype Instance<R> = Instance(items: seq<R>)

  /** Any method name other than the two the engine interprets. */
  type ForwardName = s: string | s != "filteredBy" && s != "orderedBy" witness "all"

  /**
   * A method called on the class or an instance. A forwarded method is the
   * collection method of that name, applied to the current items.
   */
  datatype Call<!R, P, A> =
    | FilteredBy(arguments: seq<Argument<P>>)
    | OrderedBy(orderArguments: seq<string>)
    | Forward(verbName: ForwardName, verb: seq<R> -> A)

  /** `BadMethodCallException` for a missing predicate method; `ArgumentCountError` for `orderedBy()`. */
  datatype Error = BadMethodCall(methodName: string) | TooFewArguments(methodName: string)

  /** What `applyCriteria` returns (true, or null for any other method) and the instance afterwards. */
  datatype Applied<R> = Applied(handled: bool, instance: Instance<R>)

  /** What `__call` returns: the instance itself, or the forwarded method's answer. */
  datatype Reply<R, A> = Chained(instance: Instance<R>) | Forwarded(instance: Instance<R>, answer: A)

  /** The method name the caller wrote. */
  function MethodName<R, P, A>(c: Call<R, P, A>): string {
    match c
    case FilteredBy(_) => "filteredBy"
    case OrderedBy(_) => "orderedBy"
    case Forward(n, _) => n
  }

  /** The base class's `dataMapper`: the items unchanged. */
  function DefaultMapper<R>(items: seq<R>): seq<R> {
    items
  }

  /** The constructor: the items are the subclass's data. */
  function New<R, P, K>(cls: Class<R, P, K>): Instance<R> {
    Instance(cls.data)
  }

  /** `$this->$method`: PHP finds methods by case-insensitive name (see `LookupIgnoresCase`). */
  function PredicateFor<R, P, K>(cls: Class<R, P, K>, methodName: string): Option<(R, P) -> bool> {
    var key := StrToLower(methodName);
    if key in cls.filters then Some(cls.filters[key]) else None
  }

  predicate Resolves<R, P, K>(cls: Class<R, P, K>, f: Filter<P>) {
    PredicateFor(cls, f.methodName).Some?
  }

  /** `x` passes every filter of `fs`, each of which names an existing predicate. */
  predicate Accepts<R, P, K>(cls: Class<R, P, K>, fs: seq<Filter<P>>, x: R)
    decreases |fs|
  {
    |fs| == 0 ||
    match PredicateFor(cls, fs[0].methodName)
    case None => false
    case Some(p) => p(x, fs[0].param) && Accepts(cls, fs[1..], x)
  }

  /**
   * One pass of the filter loop: `$this->items->filter(...)->values()`. The
   * predicate method is only looked up when the closure runs, so an empty
   * collection never reports a missing predicate.
   */
  function FilterStep<R(==, !new), P, K>(cls: Class<R, P, K>, items: seq<R>, f: Filter<P>): (r: Result<seq<R>, Error>)
    ensures |items| == 0 ==> r == Ok([])
    ensures |items| > 0 && !Resolves(cls, f) ==> r == Err(BadMethodCall(f.methodName))
    ensures r.Ok? <==> |items| == 0 || Resolves(cls, f)
    ensures r.Ok? ==> r.value == Keep(items, x => Accepts(cls, [f], x))
  {
    if |items| == 0 then Ok([])
    else
      match PredicateFor(cls, f.methodName)
      case None => Err(BadMethodCall(f.methodName))
      case Some(p) =>
        var q := x => p(x, f.param);
        forall i | 0 <= i < |items|
          ensures Accepts(cls, [f], items[i]) == q(items[i])
        {
          AcceptsOne(cls, f, items[i]);
        }
        KeepAgree(items, q, x => Accepts(cls, [f], x));
        Ok(Keep(items, q))
  }

  /**
   * The filters applied one after the other. On success the result is
   * exactly the items that pass all of them, in their original order; a
   * failure names the first filter with no predicate method that some item
   * reaches (there is only one such filter, see `FailsAtUnique`).
   */
  function ApplyFilters<R(==, !new), P, K>(cls: Class<R, P, K>, items: seq<R>, fs: seq<Filter<P>>): (r: Result<seq<R>, Error>)
    ensures r.Ok? ==> r.value == Keep(items, x => Accepts(cls, fs, x))
    ensures r.Err? ==> exists k :: FailsAt(cls, items, fs, k) && r.error == BadMethodCall(fs[k].methodName)
    ensures |items| == 0 ==> r == Ok([])
    decreases |fs|
  {
    if |fs| == 0 then
      KeepEverything(items, x => Accepts(cls, fs, x));
      Ok(items)
    else
      match FilterStep(cls, items, fs[0])
      case Err(e) =>
        FailsFirst(cls, items, fs);
        Err(e)
      case Ok(next) =>
        var r := ApplyFilters(cls, next, fs[1..]);
        if r.Err? then
          assert exists k :: FailsAt(cls, items, fs, k) && r.error == BadMethodCall(fs[k].methodName) by {
            var k :| FailsAt(cls, next, fs[1..], k) && r.error == BadMethodCall(fs[1..][k].methodName);
            FailsAtShift(cls, items, fs, k);
            assert fs[1..][k] == fs[k + 1];
          }
          r
        else
          FilterOneMore(cls, items, fs);
          r
  }

  /** Filtering by the first criterion and then by the rest is filtering by all of them. */
  lemma FilterOneMore<R(!new), P, K>(cls: Class<R, P, K>, items: seq<R>, fs: seq<Filter<P>>)
    requires |fs| > 0 && FilterStep(cls, items, fs[0]).Ok?
    ensures Keep(FilterStep(cls, items, fs[0]).value, x => Accepts(cls, fs[1..], x)) == Keep(items, x => Accepts(cls, fs, x))
  {
    if |items| > 0 {
      var p := PredicateFor(cls, fs[0].methodName).value;
      var q := x => p(x, fs[0].param);
      assert FilterStep(cls, items, fs[0]).value == Keep(items, q);
      forall i | 0 <= i < |items|
        ensures Accepts(cls, fs, items[i]) == (q(items[i]) && Accepts(cls, fs[1..], items[i]))
      {
      }
      KeepKeep(items, q, x => Accepts(cls, fs[1..], x), x => Accepts(cls, fs, x));
    }
  }

  /** The filter loop reads nothing of the class but its predicate methods. */
  lemma {:induction false} FiltersReadOnlyPredicates<R(!new), P, K>(c1: Class<R, P, K>, c2: Class<R, P, K>, items: seq<R>, fs: seq<Filter<P>>)
    requires c1.filters == c2.filters
    ensures ApplyFilters(c1, items, fs) == ApplyFilters(c2, items, fs)
    decreases |fs|
  {
    if |fs| > 0 {
      assert FilterStep(c1, items, fs[0]) == FilterStep(c2, items, fs[0]);
      if FilterStep(c1, items, fs[0]).Ok? {
        FiltersReadOnlyPredicates(c1, c2, FilterStep(c1, items, fs[0]).value, fs[1..]);
      }
    }
  }

  /**
   * `filterItems`: every criterion of every argument, in encounter order. It
   * keeps the items that pass all criteria, and fails exactly when a
   * criterion without a predicate method is reached with items left, naming it.
   */
  function FilterItems<R(==, !new), P, K>(cls: Class<R, P, K>, items: seq<R>, args: seq<Argument<P>>): (r: Result<seq<R>, Error>)
    ensures r.Ok? ==> r.value == Keep(items, x => Accepts(cls, Resolve(cls.show, args), x))
    ensures (exists k :: FailsAt(cls, items, Resolve(cls.show, args), k)) ==> r.Err?
    ensures r.Err? ==> exists k ::
      FailsAt(cls, items, Resolve(cls.show, args), k) && r.error == BadMethodCall(Resolve(cls.show, args)[k].methodName)
  {
    var fs := Resolve(cls.show, args);
    FilterFailsIff(cls, items, fs);
    ApplyFilters(cls, items, fs)
  }

  /** The sort key of `orderItems`: the value of `field` in a record. */
  function FieldKey<R, P, K>(cls: Class<R, P, K>, field: string): R -> K {
    x => cls.field(x, field)
  }

  /** The values of `field` never decrease along `items` (never increase, for descending). */
  predicate OrderedIn<R, P, K>(cls: Class<R, P, K>, items: seq<R>, field: string, d: Direction) {
    forall i, j :: 0 <= i < j < |items| ==>
      if d == Ascending then cls.le(cls.field(items[i], field), cls.field(items[j], field))
      else cls.le(cls.field(items[j], field), cls.field(items[i], field))
  }

  /** The direction token of `orderedBy($field, $order = 'asc')`. */
  function OrderToken(args: seq<string>): string {
    if |args| >= 2 then args[1] else DefaultOrder
  }

  /**
   * `orderItems`: `sortBy`, or `sortByDesc` when the token resolves to
   * descending, on the value of `field` in each record. The result is a
   * permutation of the items, ordered by that value.
   */
  function OrderItems<R(==), P, K(!new)>(cls: Class<R, P, K>, items: seq<R>, field: string, order: string): (r: seq<R>)
    ensures multiset(r) == multiset(items)
    ensures |r| == |items|
    ensures TotalPreorder(cls.le) ==> OrderedIn(cls, r, field, ResolveDirection(order))
  {
    var key := FieldKey(cls, field);
    if ResolveDirection(order) == Descending then
      FlipPreservesTotalPreorder(cls.le);
      SortBy(items, key, Flip(cls.le))
    else
      SortBy(items, key, cls.le)
  }

  /**
   * `applyCriteria`: true for `filteredBy` and `orderedBy`, with the items
   * narrowed or reordered; null, with nothing changed, for any other method.
   */
  function ApplyCriteria<R(==, !new), P, K(!new), A>(cls: Class<R, P, K>, inst: Instance<R>, call: Call<R, P, A>): (r: Result<Applied<R>, Error>)
    ensures r.Ok? ==> (r.value.handled <==> MethodName(call) == "filteredBy" || MethodName(call) == "orderedBy")
    ensures r.Ok? && !r.value.handled ==> r.value.instance == inst
    ensures r.Err? ==> !call.Forward?
    ensures call.FilteredBy? ==> (r.Ok? <==> FilterItems(cls, inst.items, call.arguments).Ok?)
    ensures call.FilteredBy? && r.Err? ==> r.error == FilterItems(cls, inst.items, call.arguments).error
    ensures call.FilteredBy? && r.Ok? ==>
      r.value.instance.items == Keep(inst.items, x => Accepts(cls, Resolve(cls.show, call.arguments), x))
    ensures call.OrderedBy? ==> (r.Err? <==> |call.orderArguments| == 0)
    ensures call.OrderedBy? && r.Ok? ==> multiset(r.value.instance.items) == multiset(inst.items)
    ensures call.OrderedBy? && r.Ok? && TotalPreorder(cls.le) ==>
      OrderedIn(cls, r.value.instance.items, call.orderArguments[0], ResolveDirection(OrderToken(call.orderArguments)))
  {
    match call
    case FilteredBy(args) =>
      var items :- FilterItems(cls, inst.items, args);
      Ok(Applied(true, Instance(items)))
    case OrderedBy(args) =>
      if |args| == 0 then Err(TooFewArguments("orderItems"))
      else
        Ok(Applied(true, Instance(OrderItems(cls, inst.items, args[0], OrderToken(args)))))
    case Forward(_, _) =>
      Ok(Applied(false, inst))
  }

  /**
   * `__call` on an instance: a criteria method returns the instance; any
   * other method first replaces the items by `dataMapper(items)` and then
   * answers from the mapped items.
   */
  function Invoke<R(==, !new), P, K(!new), A>(cls: Class<R, P, K>, inst: Instance<R>, call: Call<R, P, A>): (r: Result<Reply<R, A>, Error>)
    ensures call.Forward? ==>
      r == Ok(Forwarded(Instance(cls.mapper(inst.items)), call.verb(cls.mapper(inst.items))))
    ensures call.FilteredBy? ==> (r.Ok? <==> FilterItems(cls, inst.items, call.arguments).Ok?)
    ensures call.FilteredBy? && r.Err? ==> r.error == FilterItems(cls, inst.items, call.arguments).error
    ensures call.FilteredBy? && r.Ok? ==>
      r.value == Chained(Instance(Keep(inst.items, x => Accepts(cls, Resolve(cls.show, call.arguments), x))))
    ensures call.OrderedBy? ==> (r.Err? <==> |call.orderArguments| == 0)
    ensures call.OrderedBy? && r.Ok? ==> r.value.Chained? && multiset(r.value.instance.items) == multiset(inst.items)
    ensures call.OrderedBy? && r.Ok? && TotalPreorder(cls.le) ==>
      OrderedIn(cls, r.value.instance.items, call.orderArguments[0], ResolveDirection(OrderToken(call.orderArguments)))
  {
    var applied :- ApplyCriteria(cls, inst, call);
    if applied.handled then Ok(Chained(applied.instance))
    else
      var mapped := cls.mapper(applied.instance.items);
      match call
      case Forward(_, verb) => Ok(Forwarded(Instance(mapped), verb(mapped)))
  }

  /**
   * `__callStatic`: a fresh instance over the subclass's data, with the
   * criteria applied; any other method name leaves it as constructed. The
   * instance is returned in every case.
   */
  function InvokeStatic<R(==, !new), P, K(!new), A>(cls: Class<R, P, K>, call: Call<R, P, A>): (r: Result<Instance<R>, Error>)
    ensures call.Forward? ==> r == Ok(New(cls))
    ensures call.FilteredBy? ==> (r.Ok? <==> FilterItems(cls, cls.data, call.arguments).Ok?)
    ensures call.FilteredBy? && r.Err? ==> r.error == FilterItems(cls, cls.data, call.arguments).error
    ensures call.FilteredBy? && r.Ok? ==>
      r.value.items == Keep(cls.data, x => Accepts(cls, Resolve(cls.show, call.arguments), x))
    ensures call.OrderedBy? ==> (r.Err? <==> |call.orderArguments| == 0)
    ensures call.OrderedBy? && r.Ok? ==> multiset(r.value.items) == multiset(cls.data)
    ensures call.OrderedBy? && r.Ok? && TotalPreorder(cls.le) ==>
      OrderedIn(cls, r.value.items, call.orderArguments[0], ResolveDirection(OrderToken(call.orderArguments)))
  {
    var applied :- ApplyCriteria(cls, New(cls), call);
    Ok(applied.instance)
  }

  // Properties

  /**
   * A static criteria call is the same call on a freshly constructed
   * instance: they fail together, and otherwise the static call returns the
   * instance the instance call chains.
   */
  lemma StaticIsFreshInstance<R(!new), P, K(!new), A>(cls: Class<R, P, K>, call: Call<R, P, A>)
    requires !call.Forward?
    ensures InvokeStatic(cls, call).Ok? <==> Invoke(cls, New(cls), call).Ok?
    ensures InvokeStatic(cls, call).Ok? ==> Invoke(cls, New(cls), call) == Ok(Chained(InvokeStatic(cls, call).value))
  {
  }

  /**
   * The criterion at `k` has no predicate method, yet some item has passed
   * every criterion before it, so the closure runs and the lookup fails.
   */
  ghost predicate FailsAt<R(!new), P, K>(cls: Class<R, P, K>, items: seq<R>, fs: seq<Filter<P>>, k: int) {
    0 <= k < |fs| && !Resolves(cls, fs[k]) && |Keep(items, x => Accepts(cls, fs[..k], x))| > 0
  }

  /** A first criterion without a method fails the loop as soon as there are items. */
  lemma FailsFirst<R(!new), P, K>(cls: Class<R, P, K>, items: seq<R>, fs: seq<Filter<P>>)
    requires |fs| > 0 && |items| > 0 && !Resolves(cls, fs[0])
    ensures FailsAt(cls, items, fs, 0)
  {
    assert fs[..0] == [];
    KeepEverything(items, x => Accepts(cls, fs[..0], x));
  }

  /** An item that passes a list of criteria has passed a predicate method for each. */
  lemma {:induction false} AcceptedOnlyIfResolved<R, P, K>(cls: Class<R, P, K>, fs: seq<Filter<P>>, x: R, k: int)
    requires Accepts(cls, fs, x) && 0 <= k < |fs|
    ensures Resolves(cls, fs[k])
    decreases |fs|
  {
    if k > 0 {
      AcceptedOnlyIfResolved(cls, fs[1..], x, k - 1);
    }
  }

  /**
   * At most one criterion is the failing one: behind a criterion without a
   * method no item survives, so no later criterion is reached.
   */
  lemma FailsAtUnique<R(!new), P, K>(cls: Class<R, P, K>, items: seq<R>, fs: seq<Filter<P>>, j: int, k: int)
    requires FailsAt(cls, items, fs, j) && FailsAt(cls, items, fs, k)
    ensures j == k
  {
    if j < k {
      FailsBeyond(cls, items, fs, j, k);
    } else if k < j {
      FailsBeyond(cls, items, fs, k, j);
    }
  }

  lemma FailsBeyond<R(!new), P, K>(cls: Class<R, P, K>, items: seq<R>, fs: seq<Filter<P>>, j: int, k: int)
    requires 0 <= j < k < |fs| && !Resolves(cls, fs[j])
    ensures !FailsAt(cls, items, fs, k)
  {
    var kept := Keep(items, x => Accepts(cls, fs[..k], x));
    if |kept| > 0 {
      AcceptedOnlyIfResolved(cls, fs[..k], kept[0], j);
    }
  }

  lemma FailsAtShift<R(!new), P, K>(cls: Class<R, P, K>, items: seq<R>, fs: seq<Filter<P>>, k: int)
    requires |fs| > 0 && Resolves(cls, fs[0]) && 0 <= k < |fs| - 1
    ensures FailsAt(cls, items, fs, k + 1) <==> FailsAt(cls, FilterStep(cls, items, fs[0]).value, fs[1..], k)
  {
    assert fs[..k + 1][1..] == fs[1..][..k];
    assert fs[..k + 1][0] == fs[0];
    assert fs[1..][k] == fs[k + 1];
    FilterOneMore(cls, items, fs[..k + 1]);
  }

  /**
   * The filter loop fails exactly when, at some criterion without a predicate
   * method, some item has passed all the criteria before it.
   */
  lemma {:induction false} FilterFailsIff<R(!new), P, K>(cls: Class<R, P, K>, items: seq<R>, fs: seq<Filter<P>>)
    ensures ApplyFilters(cls, items, fs).Err? <==> exists k :: FailsAt(cls, items, fs, k)
    decreases |fs|
  {
    if |fs| == 0 {
    } else if |items| == 0 {
      assert forall k :: !FailsAt(cls, items, fs, k);
    } else if !Resolves(cls, fs[0]) {
      FailsFirst(cls, items, fs);
    } else {
      var next := FilterStep(cls, items, fs[0]).value;
      FilterFailsIff(cls, next, fs[1..]);
      assert ApplyFilters(cls, items, fs) == ApplyFilters(cls, next, fs[1..]);
      if ApplyFilters(cls, items, fs).Err? {
        var k :| FailsAt(cls, next, fs[1..], k);
        FailsAtShift(cls, items, fs, k);
        assert FailsAt(cls, items, fs, k + 1);
      } else {
        forall k | FailsAt(cls, items, fs, k)
          ensures false
        {
          assert k > 0;
          FailsAtShift(cls, items, fs, k - 1);
        }
      }
    }
  }

  /** Filtering by `a` and then by `b` is filtering by `a` followed by `b` in one pass. */
  lemma {:induction false} ApplyFiltersAppend<R(!new), P, K>(cls: Class<R, P, K>, items: seq<R>, a: seq<Filter<P>>, b: seq<Filter<P>>)
    ensures ApplyFilters(cls, items, a + b) ==
      match ApplyFilters(cls, items, a)
      case Err(e) => Err(e)
      case Ok(next) => ApplyFilters(cls, next, b)
    decreases |a|
  {
    if |a| == 0 {
      assert a + b == b;
    } else {
      assert (a + b)[0] == a[0];
      assert (a + b)[1..] == a[1..] + b;
      match FilterStep(cls, items, a[0])
      case Err(_) =>
      case Ok(next) => ApplyFiltersAppend(cls, next, a[1..], b);
    }
  }

  /**
   * `$class::filteredBy(a)->filteredBy(b)` gives the same instance as
   * `$class::filteredBy(a, b)`.
   */
  lemma ChainedFiltersAgree<R(!new), P, K(!new), A>(cls: Class<R, P, K>, a: seq<Argument<P>>, b: seq<Argument<P>>)
    ensures
      var first := InvokeStatic<R, P, K, A>(cls, FilteredBy(a));
      var chained := if first.Err? then Err(first.error) else Invoke<R, P, K, A>(cls, first.value, FilteredBy(b));
      var once := InvokeStatic<R, P, K, A>(cls, FilteredBy(a + b));
      (chained.Ok? <==> once.Ok?) &&
      (once.Ok? ==> chained.value == Chained(once.value))
  {
    ResolveAppend(cls.show, a, b);
    ApplyFiltersAppend(cls, cls.data, Resolve(cls.show, a), Resolve(cls.show, b));
  }

  /**
   * A lone bare name with a predicate method selects exactly the items the
   * predicate accepts, given the name as its parameter; `q` is that verdict.
   */
  lemma SingleFilter<R(!new), P, K>(cls: Class<R, P, K>, items: seq<R>, name: P, q: R -> bool)
    requires Resolves(cls, BareFilter(cls.show, name))
    requires forall i :: 0 <= i < |items| ==>
      q(items[i]) == PredicateFor(cls, BareFilter(cls.show, name).methodName).value(items[i], name)
    ensures FilterItems(cls, items, [Scalar(name)]) == Ok(Keep(items, q))
  {
    var f := BareFilter(cls.show, name);
    BareNameResolves(cls.show, name);
    forall i | 0 <= i < |items|
      ensures Accepts(cls, [f], items[i]) == q(items[i])
    {
      AcceptsOne(cls, f, items[i]);
    }
    KeepAgree(items, x => Accepts(cls, [f], x), q);
  }

  lemma BareNameResolves<P>(show: P -> string, name: P)
    ensures Resolve(show, [Scalar(name)]) == [BareFilter(show, name)]
  {
    PositionalFormsAgree(show, [name], [0]);
    assert Scalars([name]) == [Scalar(name)];
  }

  /** Passing a single criterion is passing its predicate method. */
  lemma AcceptsOne<R, P, K>(cls: Class<R, P, K>, f: Filter<P>, x: R)
    requires Resolves(cls, f)
    ensures Accepts(cls, [f], x) == PredicateFor(cls, f.methodName).value(x, f.param)
  {
    assert [f][1..] == [];
  }

  /** Two method names that differ only in ASCII case find the same predicate method, or none. */
  lemma LookupIgnoresCase<R, P, K>(cls: Class<R, P, K>, a: string, b: string)
    requires StrToLower(a) == StrToLower(b)
    ensures PredicateFor(cls, a) == PredicateFor(cls, b)
    ensures PredicateFor(cls, a).Some? <==> StrToLower(b) in cls.filters
  {
  }

  /**
   * A new instance holds the subclass's data: a criteria call on it acts on
   * that data, and its first forwarded call maps that data and answers from it.
   */
  lemma FreshInstanceHoldsData<R(!new), P, K(!new), A>(cls: Class<R, P, K>, name: ForwardName, verb: seq<R> -> A)
    ensures Invoke(cls, New(cls), Forward(name, verb)) ==
      Ok(Forwarded(Instance(cls.mapper(cls.data)), verb(cls.mapper(cls.data))))
    ensures InvokeStatic<R, P, K, A>(cls, Forward(name, verb)).Ok? &&
      InvokeStatic<R, P, K, A>(cls, Forward(name, verb)).value.items == cls.data
  {
  }

  /** Criteria names are matched to predicate methods regardless of letter case. */
  lemma NameCaseIrrelevant<R, P, K>(cls: Class<R, P, K>, a: string, b: string, v: P, w: P)
    requires !IsNumeric(a) && !IsNumeric(b) && StrToLower(a) == StrToLower(b)
    ensures PredicateFor(cls, GetFilter(cls.show, Entry(Name(a), v)).methodName)
         == PredicateFor(cls, GetFilter(cls.show, Entry(Name(b), w)).methodName)
  {
    var ma := GetFilter(cls.show, Entry(Name(a), v)).methodName;
    var mb := GetFilter(cls.show, Entry(Name(b), w)).methodName;
    StrToLowerAppend(FilterPrefix, a);
    StrToLowerAppend(FilterPrefix, b);
    assert StrToLower(ma) == StrToLower(mb);
    LookupIgnoresCase(cls, ma, mb);
  }

  /** Neither criteria method runs the mapper: the result does not depend on it. */
  lemma CriteriaIgnoreMapper<R(!new), P, K(!new), A>(cls: Class<R, P, K>, inst: Instance<R>, call: Call<R, P, A>, m: seq<R> -> seq<R>)
    requires !call.Forward?
    ensures Invoke(cls, inst, call) == Invoke(cls.(mapper := m), inst, call)
  {
    if call.FilteredBy? {
      FiltersReadOnlyPredicates(cls, cls.(mapper := m), inst.items, Resolve(cls.show, call.arguments));
    }
  }

  /** A static call never runs the mapper, whatever the method. */
  lemma StaticCallsIgnoreMapper<R(!new), P, K(!new), A>(cls: Class<R, P, K>, call: Call<R, P, A>, m: seq<R> -> seq<R>)
    ensures InvokeStatic(cls, call) == InvokeStatic(cls.(mapper := m), call)
  {
    if call.FilteredBy? {
      FiltersReadOnlyPredicates(cls, cls.(mapper := m), cls.data, Resolve(cls.show, call.arguments));
    }
  }

  /** With the default mapper a forwarded call leaves the items as they were. */
  lemma DefaultMapperKeepsItems<R(!new), P, K(!new), A>(cls: Class<R, P, K>, inst: Instance<R>, name: ForwardName, verb: seq<R> -> A)
    requires cls.mapper == DefaultMapper
    ensures Invoke(cls, inst, Forward(name, verb)) == Ok(Forwarded(inst, verb(inst.items)))
  {
  }

  /**
   * Nothing records that the items were mapped: two forwarded calls in a
   * row run the mapper twice, and the second method sees the items mapped twice.
   */
  lemma ForwardedCallsRemap<R(!new), P, K(!new), A>(cls: Class<R, P, K>, inst: Instance<R>, n1: ForwardName, v1: seq<R> -> A, n2: ForwardName, v2: seq<R> -> A)
    ensures
      var first := Invoke(cls, inst, Forward(n1, v1));
      first.Ok? &&
      Invoke(cls, first.value.instance, Forward(n2, v2)) ==
        Ok(Forwarded(Instance(cls.mapper(cls.mapper(inst.items))), v2(cls.mapper(cls.mapper(inst.items)))))
  {
  }

  /**
   * After `filteredBy`, a forwarded call maps only the surviving items: the
   * mapper is given exactly the items that pass every criterion.
   */
  lemma MapperSeesFilteredItems<R(!new), P, K(!new), A>(cls: Class<R, P, K>, args: seq<Argument<P>>, name: ForwardName, verb: seq<R> -> A)
    requires InvokeStatic<R, P, K, A>(cls, FilteredBy(args)).Ok?
    ensures
      var kept := Keep(cls.data, x => Accepts(cls, Resolve(cls.show, args), x));
      Invoke(cls, InvokeStatic<R, P, K, A>(cls, FilteredBy(args)).value, Forward(name, verb)) ==
        Ok(Forwarded(Instance(cls.mapper(kept)), verb(cls.mapper(kept))))
  {
  }
}

=== FILE: php_strings.dfy ===
/**
 * The PHP string built-ins the query engine relies on: `strtolower`, `ucfirst`,
 * `rtrim` with a character mask, `is_numeric` and the conversion of an integer
 * to a string. Case mapping is ASCII-only: locale-independent as from PHP 8.2,
 * and what earlier versions do under the default C locale.
 */
module PhpStrings {

  predicate IsAsciiUpper(c: char) {
    'A' <= c <= 'Z'
  }

  predicate IsAsciiLower(c: char) {
    'a' <= c <= 'z'
  }

  predicate IsDigit(c: char) {
    '0' <= c <= '9'
  }

  /** The characters PHP 8 skips around a numeric string: space, \t, \n, \r, \v and \f. */
  predicate IsNumericSpace(c: char) {
    c == ' ' || c == '\t' || c == '\n' || c == '\r' || c as int == 11 || c as int == 12
  }

  function ToLower(c: char): (r: char)
    ensures !IsAsciiUpper(r)
    ensures IsAsciiUpper(c) ==> r as int == c as int + 32
    ensures !IsAsciiUpper(c) ==> r == c
  {
    if IsAsciiUpper(c) then (c as int + 32) as char else c
  }

  function ToUpper(c: char): (r: char)
    ensures !IsAsciiLower(r)
    ensures IsAsciiLower(c) ==> r as int == c as int - 32
    ensures !IsAsciiLower(c) ==> r == c
  {
    if IsAsciiLower(c) then (c as int - 32) as char else c
  }

  /** PHP `strtolower`. */
  function StrToLower(s: string): (r: string)
    ensures |r| == |s|
    ensures forall i :: 0 <= i < |r| ==> !IsAsciiUpper(r[i])
    ensures forall i :: 0 <= i < |s| && !IsAsciiUpper(s[i]) ==> r[i] == s[i]
    ensures forall i :: 0 <= i < |s| && IsAsciiUpper(s[i]) ==> r[i] as int == s[i] as int + 32
  {
    seq(|s|, i requires 0 <= i < |s| => ToLower(s[i]))
  }

  /** PHP `ucfirst`: only the first character may change. */
  function Ucfirst(s: string): (r: string)
    ensures |r| == |s|
    ensures |s| > 0 ==> r[1..] == s[1..]
    ensures |s| > 0 ==> !IsAsciiLower(r[0])
    ensures |s| > 0 && IsAsciiLower(s[0]) ==> r[0] as int == s[0] as int - 32
    ensures |s| > 0 && !IsAsciiLower(s[0]) ==> r[0] == s[0]
  {
    if |s| == 0 then s else [ToUpper(s[0])] + s[1..]
  }

  /**
   * PHP `rtrim($s, $mask)` for a mask without `..` ranges: the longest prefix of
   * `s` that does not end in a character of `mask`.
   */
  function RTrim(s: string, mask: string): (r: string)
    ensures r <= s
    ensures forall i :: |r| <= i < |s| ==> s[i] in mask
    ensures |r| == 0 || r[|r| - 1] !in mask
    decreases |s|
  {
    if |s| > 0 && s[|s| - 1] in mask then RTrim(s[..|s| - 1], mask) else s
  }

  /** Length of the longest prefix of `s` made of digits. */
  function DigitRun(s: string): (n: nat)
    ensures n <= |s|
    ensures forall i :: 0 <= i < n ==> IsDigit(s[i])
    ensures n == |s| || !IsDigit(s[n])
  {
    if |s| > 0 && IsDigit(s[0]) then 1 + DigitRun(s[1..]) else 0
  }

  /** Length of the longest prefix of `s` made of numeric whitespace. */
  function LeadingSpace(s: string): (n: nat)
    ensures n <= |s|
    ensures forall i :: 0 <= i < n ==> IsNumericSpace(s[i])
    ensures n == |s| || !IsNumericSpace(s[n])
  {
    if |s| > 0 && IsNumericSpace(s[0]) then 1 + LeadingSpace(s[1..]) else 0
  }

  /** Length of the longest suffix of `s` made of numeric whitespace. */
  function TrailingSpace(s: string): (n: nat)
    ensures n <= |s|
    ensures forall i :: |s| - n <= i < |s| ==> IsNumericSpace(s[i])
    ensures n == |s| || !IsNumericSpace(s[|s| - n - 1])
    decreases |s|
  {
    if |s| > 0 && IsNumericSpace(s[|s| - 1]) then 1 + TrailingSpace(s[..|s| - 1]) else 0
  }

  function DropSign(s: string): string {
    if |s| > 0 && (s[0] == '+' || s[0] == '-') then s[1..] else s
  }

  /** Nothing, or `e`/`E`, an optional sign and at least one digit. */
  predicate IsExponentOrEmpty(s: string) {
    |s| == 0 ||
    ((s[0] == 'e' || s[0] == 'E') &&
     var digits := DropSign(s[1..]);
     |digits| > 0 && DigitRun(digits) == |digits|)
  }

  /** An optional sign, a decimal mantissa with at least one digit, an optional exponent. */
  predicate IsNumericBody(s: string) {
    IsUnsignedBody(DropSign(s))
  }

  /** A decimal mantissa with at least one digit, then an optional exponent. */
  predicate IsUnsignedBody(u: string) {
    var whole := DigitRun(u);
    var rest := u[whole..];
    if |rest| > 0 && rest[0] == '.' then
      var fraction := DigitRun(rest[1..]);
      whole + fraction > 0 && IsExponentOrEmpty(rest[1 + fraction..])
    else
      whole > 0 && IsExponentOrEmpty(rest)
  }

  /** A character that may occur in a numeric string. */
  predicate IsNumericChar(c: char) {
    IsDigit(c) || c == '+' || c == '-' || c == '.' || c == 'e' || c == 'E' || IsNumericSpace(c)
  }

  predicate AllNumericChars(s: string) {
    forall i :: 0 <= i < |s| ==> IsNumericChar(s[i])
  }

  predicate HasDigit(s: string) {
    exists i :: 0 <= i < |s| && IsDigit(s[i])
  }

  /**
   * PHP 8 `is_numeric` on a string: a numeric body, optionally surrounded by
   * whitespace. Such a string holds a digit, and nothing but digits, signs,
   * a point, an exponent letter and whitespace.
   */
  predicate IsNumeric(s: string)
    ensures IsNumeric(s) ==> AllNumericChars(s) && HasDigit(s)
  {
    var lead := LeadingSpace(s);
    var t := s[lead..];
    var b := t[..|t| - TrailingSpace(t)];
    NumericFrame(s, lead, b);
    IsNumericBody(b)
  }

  /** Whitespace, a numeric body, whitespace: the characters of the whole are those of the body and spaces. */
  lemma NumericFrame(s: string, lead: nat, b: string)
    requires lead == LeadingSpace(s)
    requires b == s[lead..][..|s[lead..]| - TrailingSpace(s[lead..])]
    ensures IsNumericBody(b) ==> AllNumericChars(s) && HasDigit(s)
  {
    if IsNumericBody(b) {
      NumericBodyChars(b);
      FrameParts(s, lead, b);
      FramedChars(s, lead, b);
    }
  }

  lemma FramedChars(s: string, lo: nat, b: string)
    requires lo + |b| <= |s| && s[lo..lo + |b|] == b
    requires forall i :: 0 <= i < lo ==> IsNumericSpace(s[i])
    requires forall i :: lo + |b| <= i < |s| ==> IsNumericSpace(s[i])
    requires AllNumericChars(b) && HasDigit(b)
    ensures AllNumericChars(s) && HasDigit(s)
  {
    SpliceChars(s, lo, lo + |b|);
    SliceDigit(s, lo, b);
  }

  lemma FrameParts(s: string, lead: nat, b: string)
    requires lead == LeadingSpace(s)
    requires b == s[lead..][..|s[lead..]| - TrailingSpace(s[lead..])]
    ensures lead + |b| <= |s| && s[lead..lead + |b|] == b
    ensures forall i :: lead + |b| <= i < |s| ==> IsNumericSpace(s[i])
  {
    var t := s[lead..];
    assert forall i :: lead + |b| <= i < |s| ==> s[i] == t[i - lead];
  }

  lemma SliceDigit(s: string, lo: nat, b: string)
    requires lo + |b| <= |s| && s[lo..lo + |b|] == b && HasDigit(b)
    ensures HasDigit(s)
  {
    var j :| 0 <= j < |b| && IsDigit(b[j]);
    assert s[lo + j] == b[j];
  }

  lemma SpliceChars(s: string, lo: nat, hi: nat)
    requires lo <= hi <= |s|
    requires forall i :: 0 <= i < lo ==> IsNumericSpace(s[i])
    requires AllNumericChars(s[lo..hi])
    requires forall i :: hi <= i < |s| ==> IsNumericSpace(s[i])
    ensures AllNumericChars(s)
  {
    forall i | lo <= i < hi
      ensures IsNumericChar(s[i])
    {
      assert s[i] == s[lo..hi][i - lo];
    }
  }

  /** The characters of a numeric body: a digit somewhere, and only signs, digits, a point and `e`/`E`. */
  lemma NumericBodyChars(b: string)
    requires IsNumericBody(b)
    ensures AllNumericChars(b) && HasDigit(b)
  {
    var u := DropSign(b);
    UnsignedBodyChars(u);
    if |u| < |b| {
      assert b == [b[0]] + u;
      var j :| 0 <= j < |u| && IsDigit(u[j]);
      assert IsDigit(b[j + 1]);
    }
  }

  lemma UnsignedBodyChars(u: string)
    requires IsUnsignedBody(u)
    ensures AllNumericChars(u) && HasDigit(u)
  {
    var whole := DigitRun(u);
    var rest := u[whole..];
    assert u == u[..whole] + rest;
    assert AllNumericChars(u[..whole]);
    if |rest| > 0 && rest[0] == '.' {
      FractionChars(rest);
    } else {
      ExponentChars(rest);
    }
    AppendChars(u[..whole], rest);
    UnsignedBodyDigit(u);
  }

  lemma UnsignedBodyDigit(u: string)
    requires IsUnsignedBody(u)
    ensures HasDigit(u)
  {
    var whole := DigitRun(u);
    if whole > 0 {
      assert IsDigit(u[0]);
    } else {
      assert u[whole..] == u;
      FractionChars(u);
      assert IsDigit(u[1]);
    }
  }

  /** A point, a digit run and an optional exponent. */
  lemma FractionChars(rest: string)
    requires |rest| > 0 && rest[0] == '.'
    requires IsExponentOrEmpty(rest[1 + DigitRun(rest[1..])..])
    ensures AllNumericChars(rest)
    ensures DigitRun(rest[1..]) > 0 ==> IsDigit(rest[1])
  {
    var fraction := DigitRun(rest[1..]);
    ExponentChars(rest[1 + fraction..]);
    assert rest == [rest[0]] + rest[1..1 + fraction] + rest[1 + fraction..];
    assert AllNumericChars(rest[1..1 + fraction]) by {
      assert forall i :: 0 <= i < fraction ==> rest[1..1 + fraction][i] == rest[1..][i];
    }
    AppendChars([rest[0]], rest[1..1 + fraction]);
    AppendChars([rest[0]] + rest[1..1 + fraction], rest[1 + fraction..]);
  }

  lemma AppendChars(a: string, b: string)
    requires AllNumericChars(a) && AllNumericChars(b)
    ensures AllNumericChars(a + b)
  {
    assert forall i :: |a| <= i < |a + b| ==> (a + b)[i] == b[i - |a|];
  }

  lemma ExponentChars(s: string)
    requires IsExponentOrEmpty(s)
    ensures AllNumericChars(s)
  {
    if |s| > 0 {
      var digits := DropSign(s[1..]);
      assert forall i :: 1 <= i < |s| - |digits| ==> IsNumericChar(s[i]);
      assert forall i :: |s| - |digits| <= i < |s| ==> s[i] == digits[i - (|s| - |digits|)];
    }
  }

  /** The value of a string of decimal digits. */
  function DigitsValue(s: string): int
    decreases |s|
  {
    if |s| == 0 then 0 else DigitsValue(s[..|s| - 1]) * 10 + (s[|s| - 1] as int - '0' as int)
  }

  /**
   * PHP's conversion of an integer to its decimal string: a minus sign for a
   * negative number, then digits without a leading zero, reading back as the
   * magnitude.
   */
  function Decimal(n: int): (r: string)
    ensures |r| > 0
    ensures n >= 0 ==> forall i :: 0 <= i < |r| ==> IsDigit(r[i])
    ensures n >= 0 ==> DigitsValue(r) == n
    ensures n > 0 ==> r[0] != '0'
    ensures n < 0 ==> r[0] == '-' && DigitsValue(r[1..]) == -n
    decreases if n < 0 then 1 - n else n
  {
    if n < 0 then "-" + Decimal(-n)
    else if n < 10 then [('0' as int + n) as char]
    else
      var high, low := Decimal(n / 10), Decimal(n % 10);
      assert (high + low)[..|high + low| - 1] == high;
      high + low
  }

  // Properties

  /** `ucfirst` does not change a string up to ASCII case. */
  lemma LowerOfUcfirst(s: string)
    ensures StrToLower(Ucfirst(s)) == StrToLower(s)
  {
    if |s| > 0 {
      var a, b := StrToLower(Ucfirst(s)), StrToLower(s);
      assert a[0] == b[0];
      assert forall i :: 1 <= i < |s| ==> a[i] == b[i];
    }
  }

  /** `strtolower` distributes over concatenation. */
  lemma StrToLowerAppend(a: string, b: string)
    ensures StrToLower(a + b) == StrToLower(a) + StrToLower(b)
  {
  }

  /** A string that is a digit run is numeric. */
  lemma DigitsAreNumeric(s: string)
    requires |s| > 0
    requires forall i :: 0 <= i < |s| ==> IsDigit(s[i])
    ensures IsNumeric(s)
  {
    assert LeadingSpace(s) == 0;
    assert TrailingSpace(s) == 0;
    assert s[0..][..|s| - 0] == s;
    assert DigitRun(s) == |s|;
  }

  /** A string that starts with an ASCII letter is never numeric, so such an array key is a name. */
  lemma LetterStartIsNotNumeric(s: string)
    requires |s| > 0 && (IsAsciiLower(s[0]) || IsAsciiUpper(s[0]))
    ensures !IsNumeric(s)
  {
    assert LeadingSpace(s) == 0;
    var t := s[0..][..|s| - TrailingSpace(s)];
    if |t| > 0 {
      assert t[0] == s[0];
      assert DropSign(t) == t;
      assert DigitRun(t) == 0;
    }
  }
}

=== FILE: results.dfy ===
/** Option and Result values, usable with `:-`, for the error paths of the query engine. */
module Results {

  datatype Option<+T> = None | Some(value: T)

  /** Either a value or the error the PHP code would throw. */
  datatype Result<+T, +E> = Ok(value: T) | Err(error: E) {

    predicate IsFailure() {
      Err?
    }

    function PropagateFailure<U>(): Result<U, E>
      requires Err?
    {
      Err(error)
    }

    function Extract(): T
      requires Ok?
    {
      value
    }
  }
}

=== FILE: scenarios.dfy ===
/**
 * Concrete subclasses taken from tests/Unit/DataCollectionTest.php, and what
 * the engine does with them.
 */
module Scenarios {
  import opened Results
  import opened PhpStrings
  import opened Sequences
  import opened Criteria
  import opened DataCollection

  function Identity(s: string): string {
    s
  }

  /** A subclass over integers whose criteria values are strings. */
  function Numbers(data: seq<int>, filters: map<string, (int, string) -> bool>, mapper: seq<int> -> seq<int>): Class<int, string, int> {
    Class(data, filters, mapper, Identity, (x, f) => x, IntLe)
  }

  /** A subclass over integers whose criteria values are integers. */
  function NumbersWithParams(data: seq<int>, filters: map<string, (int, int) -> bool>): Class<int, int, int> {
    Class(data, filters, DefaultMapper, Decimal, (x, f) => x, IntLe)
  }

  function Even(x: int, v: string): bool {
    x % 2 == 0
  }

  function UnderTen(x: int, v: string): bool {
    x < 10
  }

  function GreaterThan(x: int, v: int): bool {
    x > v
  }

  /**
   * `$item % $value == 0`. PHP throws `DivisionByZeroError` for a zero
   * divisor; a predicate method here is a total function, so a zero divisor
   * is answered false. The scenarios only divide by 4.
   */
  function Dividable(x: int, d: int): bool {
    d != 0 && x % d == 0
  }

  /** A `dataMapper` multiplying every item by ten. */
  function TimesTen(items: seq<int>): seq<int> {
    seq(|items|, i requires 0 <= i < |items| => items[i] * 10)
  }

  function First(items: seq<int>): Option<int> {
    if |items| == 0 then None else Some(items[0])
  }

  function Last(items: seq<int>): Option<int> {
    if |items| == 0 then None else Some(items[|items| - 1])
  }

  function ToArray(items: seq<int>): seq<int> {
    items
  }

  // Filtering

  /** `ucfirst` of a literal, given its spelling with the first letter capitalised. */
  lemma UcfirstIs(s: string, t: string)
    requires |s| > 0 && |t| == |s| && t[0] == ToUpper(s[0]) && t[1..] == s[1..]
    ensures Ucfirst(s) == t
  {
  }

  lemma EvenResolves()
    ensures BareFilter(Identity, "even") == Filter("filteredByEven", "even")
  {
    UcfirstIs("even", "Even");
    assert FilterPrefix + "Even" == "filteredByEven";
  }

  lemma EvenLowered()
    ensures StrToLower("filteredByEven") == "filteredbyeven"
  {
  }

  lemma KeepEven()
    ensures Keep([1, 2, 3, 4, 5], x => Even(x, "even")) == [2, 4]
  {
    var p := x => Even(x, "even");
    KeepCons(5, [], p);
    KeepCons(4, [5], p);
    KeepCons(3, [4, 5], p);
    KeepCons(2, [3, 4, 5], p);
    KeepCons(1, [2, 3, 4, 5], p);
  }

  lemma KeepEvenFour()
    ensures Keep([1, 2, 3, 4], x => Even(x, "even")) == [2, 4]
  {
    var p := x => Even(x, "even");
    KeepCons(4, [], p);
    KeepCons(3, [4], p);
    KeepCons(2, [3, 4], p);
    KeepCons(1, [2, 3, 4], p);
  }

  /** A call's static result is the filtered data, when the filter loop succeeds. */
  lemma StaticFilter<R(!new), P, K(!new), A>(cls: Class<R, P, K>, args: seq<Argument<P>>, r: seq<R>)
    requires FilterItems(cls, cls.data, args) == Ok(r)
    ensures InvokeStatic<R, P, K, A>(cls, FilteredBy(args)) == Ok(Instance(r))
  {
  }

  lemma EvenItems(cls: Class<int, string, int>)
    requires cls.show == Identity && cls.filters == map["filteredbyeven" := Even]
    ensures FilterItems(cls, cls.data, [Scalar("even")]) == Ok(Keep(cls.data, x => Even(x, "even")))
  {
    EvenResolves();
    EvenLowered();
    assert PredicateFor(cls, "filteredByEven") == Some(Even);
    SingleFilter(cls, cls.data, "even", x => Even(x, "even"));
  }

  /** `filteredBy('even')` of a subclass over the given data with a `filteredByEven` method. */
  lemma EvenFilter<A>(data: seq<int>, mapper: seq<int> -> seq<int>)
    ensures InvokeStatic<int, string, int, A>(Numbers(data, map["filteredbyeven" := Even], mapper), FilteredBy([Scalar("even")]))
      == Ok(Instance(Keep(data, x => Even(x, "even"))))
  {
    var cls := Numbers(data, map["filteredbyeven" := Even], mapper);
    EvenItems(cls);
    StaticFilter<int, string, int, A>(cls, [Scalar("even")], Keep(data, x => Even(x, "even")));
  }

  /** `filteredBy('even')` keeps 2 and 4 of 1..5. */
  lemma EvenScenario()
    ensures InvokeStatic<int, string, int, ()>(Numbers([1, 2, 3, 4, 5], map["filteredbyeven" := Even], DefaultMapper), FilteredBy([Scalar("even")]))
      == Ok(Instance([2, 4]))
  {
    EvenFilter<()>([1, 2, 3, 4, 5], DefaultMapper);
    KeepEven();
  }

  lemma UnderTenResolves()
    ensures BareFilter(Identity, "underTen") == Filter("filteredByUnderTen", "underTen")
  {
    UcfirstIs("underTen", "UnderTen");
    assert FilterPrefix + "UnderTen" == "filteredByUnderTen";
  }

  lemma UnderTenLowered()
    ensures StrToLower("filteredByUnderTen") == "filteredbyunderten"
  {
  }

  lemma KeepEvenUnderTen()
    ensures Keep([1, 2, 3, 10], x => Even(x, "even")) == [2, 10]
    ensures Keep([2, 10], x => UnderTen(x, "underTen")) == [2]
  {
    var p := x => Even(x, "even");
    KeepCons(10, [], p);
    KeepCons(3, [10], p);
    KeepCons(2, [3, 10], p);
    KeepCons(1, [2, 3, 10], p);
    var q := x => UnderTen(x, "underTen");
    KeepCons(10, [], q);
    KeepCons(2, [10], q);
  }

  /** Two criteria that both name predicate methods, whose verdicts are `q1` and `q2`. */
  lemma TwoFilters<R(!new), P, K>(cls: Class<R, P, K>, items: seq<R>, f1: Filter<P>, f2: Filter<P>, q1: R -> bool, q2: R -> bool)
    requires Resolves(cls, f1) && Resolves(cls, f2)
    requires forall x :: q1(x) == PredicateFor(cls, f1.methodName).value(x, f1.param)
    requires forall x :: q2(x) == PredicateFor(cls, f2.methodName).value(x, f2.param)
    ensures ApplyFilters(cls, items, [f1, f2]) == Ok(Keep(Keep(items, q1), q2))
  {
    var fs := [f1, f2];
    assert fs[0] == f1 && fs[1..] == [f2] && fs[1..][1..] == [];
    forall i | 0 <= i < |items|
      ensures Accepts(cls, fs, items[i]) == (q1(items[i]) && q2(items[i]))
    {
      assert Accepts(cls, fs[1..], items[i]) == q2(items[i]);
    }
    KeepKeep(items, q1, q2, x => Accepts(cls, fs, x));
  }

  function EvenUnderTen(): Class<int, string, int> {
    Numbers([1, 2, 3, 10], map["filteredbyeven" := Even, "filteredbyunderten" := UnderTen], DefaultMapper)
  }

  lemma EvenUnderTenItems()
    ensures ApplyFilters(EvenUnderTen(), [1, 2, 3, 10], BareFilters(Identity, ["even", "underTen"])) == Ok([2])
  {
    var cls := EvenUnderTen();
    EvenResolves();
    EvenLowered();
    UnderTenResolves();
    UnderTenLowered();
    var f1 := Filter("filteredByEven", "even");
    var f2 := Filter("filteredByUnderTen", "underTen");
    assert BareFilters(Identity, ["even", "underTen"]) == [f1, f2];
    assert PredicateFor(cls, f1.methodName) == Some(Even);
    assert PredicateFor(cls, f2.methodName) == Some(UnderTen);
    TwoFilters(cls, [1, 2, 3, 10], f1, f2, x => Even(x, "even"), x => UnderTen(x, "underTen"));
    KeepEvenUnderTen();
  }

  /** `filteredBy('even', 'underTen')` and `filteredBy(['even', 'underTen'])` both keep only 2 of 1, 2, 3, 10. */
  lemma TwoBareFiltersScenario()
    ensures InvokeStatic<int, string, int, ()>(EvenUnderTen(), FilteredBy([Scalar("even"), Scalar("underTen")])) == Ok(Instance([2]))
    ensures InvokeStatic<int, string, int, ()>(EvenUnderTen(), FilteredBy([Array([Entry(Index(0), "even"), Entry(Index(1), "underTen")])]))
      == Ok(Instance([2]))
  {
    EvenUnderTenForms();
    EvenUnderTenItems();
    StaticFilter<int, string, int, ()>(EvenUnderTen(), [Scalar("even"), Scalar("underTen")], [2]);
    StaticFilter<int, string, int, ()>(EvenUnderTen(), [Array([Entry(Index(0), "even"), Entry(Index(1), "underTen")])], [2]);
  }

  lemma EvenUnderTenForms()
    ensures Resolve(Identity, [Scalar("even"), Scalar("underTen")]) == BareFilters(Identity, ["even", "underTen"])
    ensures Resolve(Identity, [Array([Entry(Index(0), "even"), Entry(Index(1), "underTen")])]) == BareFilters(Identity, ["even", "underTen"])
  {
    var names := ["even", "underTen"];
    PositionalFormsAgree(Identity, names, [0, 1]);
    assert Scalars(names) == [Scalar("even"), Scalar("underTen")];
    assert Positional([0, 1], names) == Array([Entry(Index(0), "even"), Entry(Index(1), "underTen")]);
  }

  lemma GreaterThanResolves()
    ensures GetFilter(Decimal, Entry(Name("greaterThan"), 2)) == Filter("filteredByGreaterThan", 2)
  {
    NamedKeyNamesFilter(Decimal, "greaterThan", 2);
    GreaterThanSpelled();
  }

  lemma GreaterThanSpelled()
    ensures FilterPrefix + Ucfirst("greaterThan") == "filteredByGreaterThan"
  {
    UcfirstIs("greaterThan", "GreaterThan");
    assert FilterPrefix + "GreaterThan" == "filteredByGreaterThan";
  }

  lemma GreaterThanLowered()
    ensures StrToLower("filteredByGreaterThan") == "filteredbygreaterthan"
  {
  }

  lemma DividableResolves()
    ensures GetFilter(Decimal, Entry(Name("dividable"), 4)) == Filter("filteredByDividable", 4)
  {
    NamedKeyNamesFilter(Decimal, "dividable", 4);
    DividableSpelled();
  }

  lemma DividableSpelled()
    ensures FilterPrefix + Ucfirst("dividable") == "filteredByDividable"
  {
    UcfirstIs("dividable", "Dividable");
    assert FilterPrefix + "Dividable" == "filteredByDividable";
  }

  lemma DividableLowered()
    ensures StrToLower("filteredByDividable") == "filteredbydividable"
  {
  }

  lemma KeepGreaterDividable()
    ensures Keep([1, 2, 3, 4], x => GreaterThan(x, 2)) == [3, 4]
    ensures Keep([3, 4], x => Dividable(x, 4)) == [4]
  {
    var p := x => GreaterThan(x, 2);
    KeepCons(4, [], p);
    KeepCons(3, [4], p);
    KeepCons(2, [3, 4], p);
    KeepCons(1, [2, 3, 4], p);
    var q := x => Dividable(x, 4);
    KeepCons(4, [], q);
    KeepCons(3, [4], q);
  }

  function GreaterDividable(): Class<int, int, int> {
    NumbersWithParams([1, 2, 3, 4], map["filteredbygreaterthan" := GreaterThan, "filteredbydividable" := Dividable])
  }

  const GreaterThanTwo: seq<Argument<int>> := [Array([Entry(Name("greaterThan"), 2)])]
  const DividableByFour: seq<Argument<int>> := [Array([Entry(Name("dividable"), 4)])]

  /** An array argument with a single entry resolves to that entry's filter. */
  lemma ResolveSingleEntry<P>(show: P -> string, e: Entry<P>)
    ensures Resolve(show, [Array([e])]) == [GetFilter(show, e)]
  {
    assert [Array([e])][1..] == [];
  }

  lemma GreaterDividableResolve()
    ensures Resolve(Decimal, GreaterThanTwo + DividableByFour) == [Filter("filteredByGreaterThan", 2), Filter("filteredByDividable", 4)]
  {
    GreaterThanResolves();
    DividableResolves();
    ResolveSingleEntry(Decimal, Entry(Name("greaterThan"), 2));
    ResolveSingleEntry(Decimal, Entry(Name("dividable"), 4));
    ResolveAppend(Decimal, GreaterThanTwo, DividableByFour);
  }

  lemma GreaterDividableItems()
    ensures FilterItems(GreaterDividable(), [1, 2, 3, 4], GreaterThanTwo + DividableByFour) == Ok([4])
  {
    var cls := GreaterDividable();
    GreaterDividableResolve();
    GreaterThanLowered();
    DividableLowered();
    var f1 := Filter("filteredByGreaterThan", 2);
    var f2 := Filter("filteredByDividable", 4);
    assert PredicateFor(cls, f1.methodName) == Some(GreaterThan);
    assert PredicateFor(cls, f2.methodName) == Some(Dividable);
    TwoFilters(cls, [1, 2, 3, 4], f1, f2, x => GreaterThan(x, 2), x => Dividable(x, 4));
    KeepGreaterDividable();
  }

  const GreaterAndDividable: seq<Argument<int>> := [Array([Entry(Name("greaterThan"), 2), Entry(Name("dividable"), 4)])]

  lemma GreaterAndDividableResolve()
    ensures Resolve(Decimal, GreaterAndDividable) == Resolve(Decimal, GreaterThanTwo + DividableByFour)
  {
    GreaterDividableResolve();
    GreaterThanResolves();
    DividableResolves();
    ResolveTwoEntries(Decimal, Entry(Name("greaterThan"), 2), Entry(Name("dividable"), 4));
  }

  /** An array argument with two entries resolves to their filters in order. */
  lemma ResolveTwoEntries<P>(show: P -> string, e1: Entry<P>, e2: Entry<P>)
    ensures Resolve(show, [Array([e1, e2])]) == [GetFilter(show, e1), GetFilter(show, e2)]
  {
    assert [Array([e1, e2])][1..] == [];
  }

  /** `filteredBy(['greaterThan' => 2, 'dividable' => 4])` keeps only 4 of 1..4. */
  lemma NamedFiltersScenario()
    ensures InvokeStatic<int, int, int, ()>(GreaterDividable(), FilteredBy(GreaterAndDividable)) == Ok(Instance([4]))
  {
    GreaterDividableItems();
    GreaterAndDividableResolve();
    StaticFilter<int, int, int, ()>(GreaterDividable(), GreaterAndDividable, [4]);
  }

  /** `filteredBy(['greaterThan' => 2])->filteredBy(['dividable' => 4])` keeps only 4 of 1..4. */
  lemma ChainedFiltersScenario()
    ensures
      var first := InvokeStatic<int, int, int, ()>(GreaterDividable(), FilteredBy(GreaterThanTwo));
      first.Ok? && Invoke<int, int, int, ()>(GreaterDividable(), first.value, FilteredBy(DividableByFour)) == Ok(Chained(Instance([4])))
  {
    GreaterDividableItems();
    StaticFilter<int, int, int, ()>(GreaterDividable(), GreaterThanTwo + DividableByFour, [4]);
    ChainedFiltersAgree<int, int, int, ()>(GreaterDividable(), GreaterThanTwo, DividableByFour);
  }

  // Mapping

  function EvenTimesTen(): Class<int, string, int> {
    Numbers([1, 2, 3, 4], map["filteredbyeven" := Even], TimesTen)
  }

  const ToArrayName: ForwardName := "toArray"

  /** `filteredBy('even')->toArray()` with a mapper times ten gives 20, 40: the mapper sees only 2 and 4. */
  lemma MapperAfterFilterScenario()
    ensures InvokeStatic<int, string, int, seq<int>>(EvenTimesTen(), FilteredBy([Scalar("even")])) == Ok(Instance([2, 4]))
    ensures Invoke(EvenTimesTen(), Instance([2, 4]), Forward(ToArrayName, ToArray)) == Ok(Forwarded(Instance([20, 40]), [20, 40]))
  {
    EvenFilter<seq<int>>([1, 2, 3, 4], TimesTen);
    KeepEvenFour();
    TimesTenEvens();
  }

  lemma TimesTenEvens()
    ensures TimesTen([2, 4]) == [20, 40]
  {
  }

  const AllName: ForwardName := "all"
  const FirstName: ForwardName := "first"
  const LastName: ForwardName := "last"

  function TimesTenOnly(): Class<int, string, int> {
    Numbers([1, 2, 3, 4], map[], TimesTen)
  }

  lemma TimesTenTwice()
    ensures TimesTen([1, 2, 3, 4]) == [10, 20, 30, 40]
    ensures TimesTen([10, 20, 30, 40]) == [100, 200, 300, 400]
  {
  }

  /**
   * `$class::all()` returns the instance unmapped; `first()` then maps it
   * once and answers 10, and `last()` maps it again and answers 400, not the
   * 40 the test at tests/Unit/DataCollectionTest.php:541 expects.
   */
  lemma RemapScenario()
    ensures InvokeStatic<int, string, int, seq<int>>(TimesTenOnly(), Forward(AllName, ToArray)) == Ok(Instance([1, 2, 3, 4]))
    ensures Invoke(TimesTenOnly(), Instance([1, 2, 3, 4]), Forward(FirstName, First)) == Ok(Forwarded(Instance([10, 20, 30, 40]), Some(10)))
    ensures Invoke(TimesTenOnly(), Instance([10, 20, 30, 40]), Forward(LastName, Last)) == Ok(Forwarded(Instance([100, 200, 300, 400]), Some(400)))
  {
    TimesTenTwice();
  }

  // Ordering

  /** A record with named string fields; a missing field reads as the empty string. */
  type Row = map<string, string>

  function RowField(r: Row, f: string): string {
    if f in r then r[f] else ""
  }

  /** A subclass over records, ordered by comparing field values as strings. */
  function Rows(data: seq<Row>, filters: map<string, (Row, string) -> bool>): Class<Row, string, string> {
    Class(data, filters, DefaultMapper, Identity, RowField, LexLe)
  }

  const Alpha: Row := map["name" := "Alpha"]
  const Beta: Row := map["name" := "Beta"]
  const Delta: Row := map["name" := "Delta"]

  function Greek(filters: map<string, (Row, string) -> bool>): Class<Row, string, string> {
    Rows([Alpha, Delta, Beta], filters)
  }

  lemma NamesCompare()
    ensures LexLe("Alpha", "Beta") && LexLe("Alpha", "Delta") && LexLe("Beta", "Delta")
    ensures !LexLe("Beta", "Alpha") && !LexLe("Delta", "Alpha") && !LexLe("Delta", "Beta")
  {
  }

  /** Insertion sort of three items whose keys, in order, are lowest, highest and middle. */
  lemma SortLowHighMiddle<T, K(!new)>(x: T, y: T, z: T, key: T -> K, le: (K, K) -> bool)
    requires !le(key(y), key(z)) && le(key(x), key(z))
    ensures SortBy([x, y, z], key, le) == [x, z, y]
  {
    assert [x, y, z][1..] == [y, z] && [y, z][1..] == [z] && [z][1..] == [];
    assert SortBy([z], key, le) == [z];
    assert SortBy([y, z], key, le) == [z, y];
  }

  /** Insertion sort of three items whose keys, in order, are lowest, highest and middle, in reverse. */
  lemma SortHighMiddleLow<T, K(!new)>(x: T, y: T, z: T, key: T -> K, le: (K, K) -> bool)
    requires le(key(y), key(z)) && !le(key(x), key(y)) && !le(key(x), key(z))
    ensures SortBy([x, y, z], key, le) == [y, z, x]
  {
    assert [x, y, z][1..] == [y, z] && [y, z][1..] == [z] && [z][1..] == [];
    assert SortBy([z], key, le) == [z];
    assert SortBy([y, z], key, le) == [y, z];
    assert Insert(x, [z], key, le) == [z, x];
    assert Insert(x, [y, z], key, le) == [y] + Insert(x, [z], key, le);
  }

  /** A static `orderedBy` with a field, and perhaps a direction, orders the subclass's data. */
  lemma StaticOrder<R(!new), P, K(!new), A>(cls: Class<R, P, K>, args: seq<string>)
    requires |args| > 0
    ensures InvokeStatic<R, P, K, A>(cls, OrderedBy(args))
      == Ok(Instance(OrderItems(cls, cls.data, args[0], if |args| >= 2 then args[1] else DefaultOrder)))
  {
  }

  lemma GreekNames(cls: Class<Row, string, string>)
    requires cls.field == RowField
    ensures FieldKey(cls, "name")(Alpha) == "Alpha"
    ensures FieldKey(cls, "name")(Beta) == "Beta"
    ensures FieldKey(cls, "name")(Delta) == "Delta"
  {
    assert RowField(Alpha, "name") == "Alpha" && RowField(Beta, "name") == "Beta" && RowField(Delta, "name") == "Delta";
  }

  lemma AscendingItems(cls: Class<Row, string, string>, order: string)
    requires cls.field == RowField && cls.le == LexLe && ResolveDirection(order) == Ascending
    ensures OrderItems(cls, [Alpha, Delta, Beta], "name", order) == [Alpha, Beta, Delta]
  {
    GreekNames(cls);
    NamesCompare();
    SortLowHighMiddle(Alpha, Delta, Beta, FieldKey(cls, "name"), cls.le);
  }

  lemma DescendingItems(cls: Class<Row, string, string>, order: string)
    requires cls.field == RowField && cls.le == LexLe && ResolveDirection(order) == Descending
    ensures OrderItems(cls, [Alpha, Delta, Beta], "name", order) == [Delta, Beta, Alpha]
  {
    GreekNames(cls);
    NamesCompare();
    SortHighMiddleLow(Alpha, Delta, Beta, FieldKey(cls, "name"), Flip(cls.le));
  }

  /** `orderedBy('name')` sorts Alpha, Delta, Beta into Alpha, Beta, Delta. */
  lemma AscendingScenario()
    ensures InvokeStatic<Row, string, string, ()>(Greek(map[]), OrderedBy(["name"])) == Ok(Instance([Alpha, Beta, Delta]))
  {
    DirectionTokens();
    AscendingItems(Greek(map[]), DefaultOrder);
    StaticOrder<Row, string, string, ()>(Greek(map[]), ["name"]);
  }

  /** `orderedBy('name', t)` sorts them into Delta, Beta, Alpha for each token t the tests use. */
  lemma DescendingScenario()
    ensures InvokeStatic<Row, string, string, ()>(Greek(map[]), OrderedBy(["name", "desc"])) == Ok(Instance([Delta, Beta, Alpha]))
    ensures InvokeStatic<Row, string, string, ()>(Greek(map[]), OrderedBy(["name", "descending"])) == Ok(Instance([Delta, Beta, Alpha]))
    ensures InvokeStatic<Row, string, string, ()>(Greek(map[]), OrderedBy(["name", "DESC"])) == Ok(Instance([Delta, Beta, Alpha]))
    ensures InvokeStatic<Row, string, string, ()>(Greek(map[]), OrderedBy(["name", "DESCENDING"])) == Ok(Instance([Delta, Beta, Alpha]))
  {
    var cls := Greek(map[]);
    DirectionTokens();
    DescendingItems(cls, "desc");
    DescendingItems(cls, "descending");
    DescendingItems(cls, "DESC");
    DescendingItems(cls, "DESCENDING");
    StaticOrder<Row, string, string, ()>(cls, ["name", "desc"]);
    StaticOrder<Row, string, string, ()>(cls, ["name", "descending"]);
    StaticOrder<Row, string, string, ()>(cls, ["name", "DESC"]);
    StaticOrder<Row, string, string, ()>(cls, ["name", "DESCENDING"]);
  }

  function NotAlpha(r: Row, v: string): bool {
    RowField(r, "name") != "Alpha"
  }

  lemma NotAlphaResolves()
    ensures BareFilter(Identity, "notAlpha") == Filter("filteredByNotAlpha", "notAlpha")
  {
    UcfirstIs("notAlpha", "NotAlpha");
    assert FilterPrefix + "NotAlpha" == "filteredByNotAlpha";
  }

  lemma NotAlphaLowered()
    ensures StrToLower("filteredByNotAlpha") == "filteredbynotalpha"
  {
  }

  lemma KeepNotAlpha()
    ensures Keep([Alpha, Delta, Beta], x => NotAlpha(x, "notAlpha")) == [Delta, Beta]
  {
    var p := x => NotAlpha(x, "notAlpha");
    assert RowField(Alpha, "name") == "Alpha" && RowField(Beta, "name") == "Beta" && RowField(Delta, "name") == "Delta";
    KeepCons(Beta, [], p);
    KeepCons(Delta, [Beta], p);
    KeepCons(Alpha, [Delta, Beta], p);
  }

  lemma NotAlphaItems(cls: Class<Row, string, string>)
    requires cls.show == Identity && cls.filters == map["filteredbynotalpha" := NotAlpha]
    ensures FilterItems(cls, cls.data, [Scalar("notAlpha")]) == Ok(Keep(cls.data, x => NotAlpha(x, "notAlpha")))
  {
    NotAlphaResolves();
    NotAlphaLowered();
    assert PredicateFor(cls, "filteredByNotAlpha") == Some(NotAlpha);
    SingleFilter(cls, cls.data, "notAlpha", x => NotAlpha(x, "notAlpha"));
  }

  /** Insertion sort of two items out of order swaps them. */
  lemma SortSwapsTwo<T, K(!new)>(x: T, y: T, key: T -> K, le: (K, K) -> bool)
    requires !le(key(x), key(y))
    ensures SortBy([x, y], key, le) == [y, x]
  {
    assert [x, y][1..] == [y] && [y][1..] == [];
    assert SortBy([y], key, le) == [y];
  }

  /** `filteredBy('notAlpha')` leaves Delta and Beta, in their original order. */
  lemma NotAlphaScenario()
    ensures InvokeStatic<Row, string, string, ()>(Greek(map["filteredbynotalpha" := NotAlpha]), FilteredBy([Scalar("notAlpha")]))
      == Ok(Instance([Delta, Beta]))
  {
    var cls := Greek(map["filteredbynotalpha" := NotAlpha]);
    NotAlphaItems(cls);
    KeepNotAlpha();
    StaticFilter<Row, string, string, ()>(cls, [Scalar("notAlpha")], [Delta, Beta]);
  }

  /** `filteredBy('notAlpha')->orderedBy('name', 'asc')` leaves Beta, Delta. */
  lemma FilterThenOrderScenario()
    ensures InvokeStatic<Row, string, string, ()>(NotAlphaGreek(), FilteredBy([Scalar("notAlpha")])) == Ok(Instance([Delta, Beta]))
    ensures Invoke<Row, string, string, ()>(NotAlphaGreek(), Instance([Delta, Beta]), OrderedBy(["name", "asc"])) == Ok(Chained(Instance([Beta, Delta])))
  {
    NotAlphaScenario();
    OrderTwo(NotAlphaGreek());
    ChainedOrder<Row, string, string, ()>(NotAlphaGreek(), Instance([Delta, Beta]), ["name", "asc"]);
  }

  function NotAlphaGreek(): Class<Row, string, string> {
    Greek(map["filteredbynotalpha" := NotAlpha])
  }

  lemma OrderTwo(cls: Class<Row, string, string>)
    requires cls.field == RowField && cls.le == LexLe
    ensures OrderItems(cls, [Delta, Beta], "name", "asc") == [Beta, Delta]
  {
    DirectionTokens();
    GreekNames(cls);
    NamesCompare();
    SortSwapsTwo(Delta, Beta, FieldKey(cls, "name"), cls.le);
  }

  /** `orderedBy` on an instance with a field and a direction orders its items. */
  lemma ChainedOrder<R(!new), P, K(!new), A>(cls: Class<R, P, K>, inst: Instance<R>, args: seq<string>)
    requires |args| == 2
    ensures Invoke<R, P, K, A>(cls, inst, OrderedBy(args)) == Ok(Chained(Instance(OrderItems(cls, inst.items, args[0], args[1]))))
  {
  }

  // Errors

  lemma OddResolves()
    ensures BareFilter(Identity, "odd") == Filter("filteredByOdd", "odd")
  {
    UcfirstIs("odd", "Odd");
    assert FilterPrefix + "Odd" == "filteredByOdd";
  }

  lemma OddResolvesTo()
    ensures Resolve(Identity, [Scalar("odd")]) == [Filter("filteredByOdd", "odd")]
  {
    OddResolves();
    BareNameResolves(Identity, "odd");
  }

  lemma OddIsMissing()
    ensures StrToLower("filteredByOdd") != "filteredbyeven"
  {
    assert StrToLower("filteredByOdd")[10] == 'o';
  }

  /** `filteredBy('odd')` without a `filteredByOdd` method throws `BadMethodCallException` when there are items. */
  lemma MissingFilterScenario()
    ensures InvokeStatic<int, string, int, ()>(Numbers([1, 2], map["filteredbyeven" := Even], DefaultMapper), FilteredBy([Scalar("odd")]))
      == Err(BadMethodCall("filteredByOdd"))
  {
    OddResolvesTo();
    OddIsMissing();
    assert [Filter("filteredByOdd", "odd")][1..] == [];
  }

  /** `filteredBy('odd')` over no data returns the empty instance: no predicate is ever looked up. */
  lemma MissingFilterOnNothingScenario()
    ensures InvokeStatic<int, string, int, ()>(Numbers([], map["filteredbyeven" := Even], DefaultMapper), FilteredBy([Scalar("odd")]))
      == Ok(Instance([]))
  {
  }
}

=== FILE: sequences.dfy ===
/**
 * The collection operations the engine borrows from its host container, as
 * plain sequence functions: `filter` followed by `values` (here `Keep`), and
 * `sortBy`/`sortByDesc` followed by `values` (here `SortBy`, an insertion sort).
 * Sequences are always densely indexed from 0, so `values()` has no counterpart.
 */
module Sequences {

  /**
   * `a` is obtained from `b` by deleting elements, keeping the order of the
   * rest (matching each element of `a` to its earliest occurrence in `b`).
   */
  predicate IsSubsequence<T(==)>(a: seq<T>, b: seq<T>)
    decreases |b|
  {
    if |a| == 0 then true
    else if |b| == 0 then false
    else if a[0] == b[0] then IsSubsequence(a[1..], b[1..])
    else IsSubsequence(a, b[1..])
  }

  /** The number of positions of `s` whose element satisfies `p`. */
  function CountWhere<T>(s: seq<T>, p: T -> bool): (n: nat)
    ensures n <= |s|
    decreases |s|
  {
    if |s| == 0 then 0 else (if p(s[0]) then 1 else 0) + CountWhere(s[1..], p)
  }

  /**
   * The elements of `s` that satisfy `p`, in their original order: a
   * subsequence of `s`, all of whose elements satisfy `p`, as long as there
   * are positions of `s` satisfying `p` (so none of them is left out).
   */
  function Keep<T(==,!new)>(s: seq<T>, p: T -> bool): (r: seq<T>)
    ensures |r| == CountWhere(s, p)
    ensures IsSubsequence(r, s)
    ensures forall i :: 0 <= i < |r| ==> p(r[i])
    decreases |s|
  {
    if |s| == 0 then []
    else
      var rest := Keep(s[1..], p);
      if p(s[0]) then
        assert ([s[0]] + rest)[1..] == rest;
        [s[0]] + rest
      else
        assert |rest| > 0 ==> p(rest[0]);
        rest
  }

  /** Each value occurs in the result as often as in `s` if it satisfies `p`, and not at all otherwise. */
  lemma {:induction false} KeepCounts<T(!new)>(s: seq<T>, p: T -> bool)
    ensures forall x :: multiset(Keep(s, p))[x] == if p(x) then multiset(s)[x] else 0
    decreases |s|
  {
    if |s| > 0 {
      KeepCounts(s[1..], p);
      assert s == [s[0]] + s[1..];
    }
  }

  /** Filtering a sequence with a given first element. */
  lemma KeepCons<T(!new)>(x: T, s: seq<T>, p: T -> bool)
    ensures Keep([x] + s, p) == if p(x) then [x] + Keep(s, p) else Keep(s, p)
  {
    assert ([x] + s)[1..] == s;
  }

  /** Filtering by `p` and then by `q` is filtering once by their conjunction `pq`. */
  lemma {:induction false} KeepKeep<T(!new)>(s: seq<T>, p: T -> bool, q: T -> bool, pq: T -> bool)
    requires forall i :: 0 <= i < |s| ==> pq(s[i]) == (p(s[i]) && q(s[i]))
    ensures Keep(Keep(s, p), q) == Keep(s, pq)
    decreases |s|
  {
    if |s| > 0 {
      KeepKeep(s[1..], p, q, pq);
      if p(s[0]) {
        assert Keep(s, p)[1..] == Keep(s[1..], p);
      }
    }
  }

  /** Filtering depends only on the verdicts of the predicate on the elements present. */
  lemma {:induction false} KeepAgree<T(!new)>(s: seq<T>, p: T -> bool, q: T -> bool)
    requires forall i :: 0 <= i < |s| ==> p(s[i]) == q(s[i])
    ensures Keep(s, p) == Keep(s, q)
    decreases |s|
  {
    if |s| > 0 {
      KeepAgree(s[1..], p, q);
    }
  }

  /** Filtering by a predicate that holds everywhere changes nothing. */
  lemma KeepEverything<T(!new)>(s: seq<T>, p: T -> bool)
    requires forall x :: p(x)
    ensures Keep(s, p) == s
  {
    CountEverything(s, p);
    SubsequenceOfSameLength(Keep(s, p), s);
  }

  lemma {:induction false} CountEverything<T(!new)>(s: seq<T>, p: T -> bool)
    requires forall x :: p(x)
    ensures CountWhere(s, p) == |s|
    decreases |s|
  {
    if |s| > 0 {
      CountEverything(s[1..], p);
    }
  }

  /** A subsequence as long as the sequence is the sequence itself. */
  lemma {:induction false} SubsequenceOfSameLength<T>(a: seq<T>, b: seq<T>)
    requires IsSubsequence(a, b) && |a| == |b|
    ensures a == b
    decreases |b|
  {
    if |a| > 0 {
      if a[0] == b[0] {
        SubsequenceOfSameLength(a[1..], b[1..]);
        assert a == [a[0]] + a[1..] && b == [b[0]] + b[1..];
      } else {
        SubsequenceNoLonger(a, b[1..]);
      }
    }
  }

  /** A subsequence is never longer than the sequence. */
  lemma {:induction false} SubsequenceNoLonger<T>(a: seq<T>, b: seq<T>)
    requires IsSubsequence(a, b)
    ensures |a| <= |b|
    decreases |b|
  {
    if |a| > 0 {
      if a[0] == b[0] {
        SubsequenceNoLonger(a[1..], b[1..]);
      } else {
        SubsequenceNoLonger(a, b[1..]);
      }
    }
  }

  /** `le` is total and transitive. */
  ghost predicate TotalPreorder<K(!new)>(le: (K, K) -> bool) {
    && (forall a, b :: le(a, b) || le(b, a))
    && (forall a, b, c :: le(a, b) && le(b, c) ==> le(a, c))
  }

  /** The keys of `s` appear in non-decreasing `le` order. */
  predicate SortedBy<T, K>(s: seq<T>, key: T -> K, le: (K, K) -> bool) {
    forall i, j :: 0 <= i < j < |s| ==> le(key(s[i]), key(s[j]))
  }

  /** The reverse relation, used for descending order. */
  function Flip<K>(le: (K, K) -> bool): (K, K) -> bool
  {
    (a, b) => le(b, a)
  }

  lemma FlipPreservesTotalPreorder<K(!new)>(le: (K, K) -> bool)
    ensures TotalPreorder(le) ==> TotalPreorder(Flip(le))
  {
  }

  /** Inserts `x` before the first element whose key it does not exceed. */
  function Insert<T(==), K>(x: T, s: seq<T>, key: T -> K, le: (K, K) -> bool): (r: seq<T>)
    ensures multiset(r) == multiset(s) + multiset{x}
    ensures |r| == |s| + 1
    decreases |s|
  {
    if |s| == 0 then [x]
    else if le(key(x), key(s[0])) then
      assert s == [s[0]] + s[1..];
      [x] + s
    else
      assert s == [s[0]] + s[1..];
      [s[0]] + Insert(x, s[1..], key, le)
  }

  /** Inserting into a sorted sequence keeps it sorted. */
  lemma {:induction false} InsertKeepsSorted<T, K(!new)>(x: T, s: seq<T>, key: T -> K, le: (K, K) -> bool)
    ensures TotalPreorder(le) && SortedBy(s, key, le) ==> SortedBy(Insert(x, s, key, le), key, le)
    decreases |s|
  {
    if TotalPreorder(le) && SortedBy(s, key, le) && |s| > 0 && !le(key(x), key(s[0])) {
      var rest := Insert(x, s[1..], key, le);
      InsertKeepsSorted(x, s[1..], key, le);
      HeadBoundsInsertion(x, s, rest, key, le);
      assert Insert(x, s, key, le) == [s[0]] + rest;
    }
  }

  /** The head of a sorted `s` is a lower bound of `s[1..]` with `x` inserted, when it is below `x`. */
  lemma HeadBoundsInsertion<T, K(!new)>(x: T, s: seq<T>, rest: seq<T>, key: T -> K, le: (K, K) -> bool)
    requires |s| > 0
    requires multiset(rest) == multiset(s[1..]) + multiset{x}
    requires TotalPreorder(le) && SortedBy(s, key, le) && !le(key(x), key(s[0]))
    ensures forall j :: 0 <= j < |rest| ==> le(key(s[0]), key(rest[j]))
  {
    forall j | 0 <= j < |rest|
      ensures le(key(s[0]), key(rest[j]))
    {
      assert rest[j] in multiset(rest);
      if rest[j] != x {
        assert rest[j] in multiset(s[1..]);
        var k :| 0 <= k < |s[1..]| && s[1..][k] == rest[j];
        assert s[k + 1] == rest[j];
      }
    }
  }

  /** Insertion sort: a permutation of `s` ordered by the keys. */
  function SortBy<T(==), K(!new)>(s: seq<T>, key: T -> K, le: (K, K) -> bool): (r: seq<T>)
    ensures multiset(r) == multiset(s)
    ensures |r| == |s|
    ensures TotalPreorder(le) ==> SortedBy(r, key, le)
    decreases |s|
  {
    if |s| == 0 then []
    else
      var sorted := SortBy(s[1..], key, le);
      assert s == [s[0]] + s[1..];
      InsertKeepsSorted(s[0], sorted, key, le);
      Insert(s[0], sorted, key, le)
  }

  /** Byte-wise lexicographic order on strings, as PHP compares non-numeric strings. */
  predicate LexLe(a: string, b: string)
    decreases |a|
  {
    |a| == 0 || (|b| > 0 && (a[0] < b[0] || (a[0] == b[0] && LexLe(a[1..], b[1..]))))
  }

  lemma {:induction false} LexLeTotal(a: string, b: string)
    ensures LexLe(a, b) || LexLe(b, a)
    decreases |a|
  {
    if |a| > 0 && |b| > 0 && a[0] == b[0] {
      LexLeTotal(a[1..], b[1..]);
    }
  }

  lemma {:induction false} LexLeTransitive(a: string, b: string, c: string)
    requires LexLe(a, b) && LexLe(b, c)
    ensures LexLe(a, c)
    decreases |a|
  {
    if |a| > 0 && a[0] == b[0] && b[0] == c[0] {
      LexLeTransitive(a[1..], b[1..], c[1..]);
    }
  }

  lemma LexLeIsTotalPreorder()
    ensures TotalPreorder(LexLe)
  {
    forall a, b
      ensures LexLe(a, b) || LexLe(b, a)
    {
      LexLeTotal(a, b);
    }
    forall a, b, c | LexLe(a, b) && LexLe(b, c)
      ensures LexLe(a, c)
    {
      LexLeTransitive(a, b, c);
    }
  }

  predicate IntLe(a: int, b: int) {
    a <= b
  }

  lemma IntLeIsTotalPreorder()
    ensures TotalPreorder(IntLe)
  {
  }
}
